=== FILE: README.md ===
# w-h-a/cli core, modelled in Dafny

This project models the core of the `w-h-a/cli` infrastructure tool. The tool
describes a deployment as a list of *steps*. Each step is a group of *tasks*,
and every task answers five verbs: `Validate`, `Plan`, `Apply`, `Destroy` and
`Finalize`. Two kinds of task are modelled:

- the **state checker**, which proves the remote-state backend usable. It
  stores an object named after the task in an S3 bucket, reads it back,
  compares it and deletes it;
- the **terraform executor**, which does the following in order: creates its
  working directory, admits only `http`/`https` module sources, clones the
  module, writes the S3 backend and remote-state files, and runs
  `terraform init` and `terraform validate`. `Plan` runs `terraform plan`.

The **step sequencer** validates every task in step-then-task order. It
registers each task's `Finalize` on a defer stack before calling its
`Validate`, and stops at the first error. The **step builders** produce the
step lists for a platform: a state check, then per-region cluster,
kubeconfig and namespace tasks.

Every effect on the outside world is a parameter:

- the filesystem, `git`, the terraform subprocess and the runtime's map
  iteration order are in `Terraform.Host`;
- the S3 store is `StateProbe.Store`;
- the configuration registry is `Settings.Config`.

Each effect is an oracle that says whether it succeeded. The model records
the actions taken, in order, and the error returned.

Modules:

| module | models |
|---|---|
| `Options`, `TerraformOptions` | functional options, and the two context-bound maps as typed `Option<map>` fields |
| `Steps` | `ExecuteValidate`, as a loop with an explicit defer stack, proved equal to an independent reference run |
| `Stages` | the executor's `if err := …; err != nil { return err }` chains |
| `Relay` | the per-stream line relay of a terraform run |
| `TerraformEnv`, `StateFiles`, `Url`, `Terraform` | the executor: environment, state files, the scheme check, and the verbs |
| `StateProbe` | the state checker's S3 round trip |
| `Tasks` | the task interface as two variants, and the bridge to the sequencer |
| `StepPlatform`, `KubernetesSteps`, `PlatformSteps` | the three step builders |

Where the code's behaviour departs from the project's design description, the
model follows the code:

- `Validate` creates the working directory before it parses the source. An
  unsupported scheme is therefore refused after a filesystem effect, not
  before any effect (`Terraform.UnsupportedSchemeRefused`).
- Relayed output lines are prefixed with `[<task name>] ` only. The stream's
  name is not part of the prefix.
- The stdout pipe error reads `stdoutpip failed: `, and is kept verbatim.
- The per-cluster builder clones from a fixed GitHub locator whatever
  `base-source` says, and passes `token` where the other builders pass
  `do_token`.

## Model

| member | source | states |
|---|---|---|
| Options.Apply | internal/task/options.go:15-37 | each option writes exactly the field it targets, with the value it carries; every other field is unchanged |
| Options.NewTaskOptions | internal/task/options.go:39-49 | each field holds what the last option targeting it carried, or its zero value when none does; no options gives all zero values and an empty context |
| Options.FoldLastWins | internal/task/options.go:44-46 | applying options left to right agrees with the independent "last setting for a field wins" description |
| Options.FoldAppend | internal/task/options.go:44-46 | applying a concatenated option list is applying the first part, then the second |
| Options.LaterOverrides | internal/task/options.go:15-37 | a later option for the same field overrides an earlier one entirely |
| Options.ApplyCommutes | internal/task/options.go:15-37 | options for different fields can be applied in either order |
| Options.OptionsCommute | internal/task/options.go:39-49 | swapping two adjacent options for different fields anywhere in the list builds the same options |
| Options.UntouchedFieldKeepsStart | internal/task/options.go:39-49 | a field that no option targets keeps its starting value |
| TerraformOptions.WithVarsOnlyBindsVars | internal/task/terraform/options.go:9-13 | the executor reads back exactly the bound input values, and nothing else changes |
| TerraformOptions.WithRemoteStatesOnlyBindsRemoteStates | internal/task/terraform/options.go:15-19 | the executor reads back exactly the bound remote states, and nothing else changes |
| TerraformOptions.BothBindingsRetrievable | internal/task/terraform/options.go:9-19 | both context bindings stay retrievable, whichever option runs first |
| TerraformOptions.LaterVarsWin | internal/task/terraform/options.go:9-13 | binding input values twice leaves the later map visible |
| TerraformOptions.WithoutBindingsEmpty | internal/task/terraform/terraform.go:112-115 | a task built without the executor options ranges over empty input values and empty remote states |
| Steps.ExecuteValidate | internal/step/step.go:7-18 | the loop with its defer stack makes exactly the calls of the reference run and returns its result |
| Steps.RunDeferred | internal/step/step.go:10 | deferred `Finalize` calls run from the top of the stack down, each recorded once |
| Steps.Flatten | internal/step/step.go:8-9 | the positions the two loops visit are exactly the tasks of the step list, in step-then-task order |
| Steps.ReferenceCalls | internal/step/step.go:7-18 | the validated positions are the attempted ones; the finalized positions are the same ones reversed |
| Steps.ValidatesInStepOrder | internal/step/step.go:8-9 | `Validate` is called on a prefix of the task order, never skipping a task |
| Steps.StopsAtFirstError | internal/step/step.go:11-13 | every call before the last succeeded; the result is an error exactly when the last call failed, and it is that error; a nil result means every task was validated |
| Steps.SkippedOnlyAfterFailure | internal/step/step.go:11-13 | a task is left unvalidated only if an earlier task failed |
| Steps.FinalizeOncePerValidated | internal/step/step.go:10 | each validated task, including the failing one, is finalized exactly once and no other task is; finalizers run in reverse order |
| Steps.FinalizersRunLast | internal/step/step.go:10-17 | no `Validate` call follows a `Finalize` call |
| Steps.FinalizeErrorsDiscarded | internal/step/step.go:10 | what the finalizers return changes neither the result nor the calls made |
| Steps.EmptyStepsNoCalls | internal/step/step.go:7-18 | a step list without tasks returns nil and calls nothing |
| Steps.FirstStepFailureScenario | internal/step/step.go:7-18 | when the first of two one-task steps fails, its error is returned, the second task is never validated, and the first is finalized once |
| Stages.RunStages | internal/task/terraform/terraform.go:49-83 | a failing chain reports the error of one of its stages |
| Stages.RunStagesFirstFailure | internal/task/terraform/terraform.go:49-83 | a stage chain returns the first failing stage's error, or nil; its actions are those of the stages up to and including that one |
| Stages.RunStagesFails | internal/task/terraform/terraform.go:49-83 | the chain fails exactly when some stage fails; without a failure every stage's actions are taken |
| Stages.LaterStagesIgnored | internal/task/terraform/terraform.go:49-83 | stages after a failing one leave no trace |
| Stages.RunInOrder | internal/task/terraform/terraform.go:49-83 | running the stages one by one and returning at the first error gives the chain's run |
| Relay.Chunks | internal/task/terraform/terraform.go:153-156 | successive line reads split the stream into chunks that concatenate back to it; each chunk but the last ends at its first newline, and the last holds no newline |
| Relay.ChunksUnique | internal/task/terraform/terraform.go:153-156 | that shape determines the chunking uniquely |
| Relay.ReadStringShape | internal/task/terraform/terraform.go:156 | a successful read returns the next line with its newline; a read at the stream's end returns the remainder and reports end-of-file or the read error |
| Relay.RelayStream | internal/task/terraform/terraform.go:146-170 | the reader loop writes exactly the independently described relay of the stream |
| Relay.RelayedLines | internal/task/terraform/terraform.go:158-160 | every relayed line carries the `[name] ` prefix and text that is not white space only |
| Relay.StreamRoundTrip | internal/task/terraform/terraform.go:155-163 | for a cleanly ending stream without white-space-only lines, stripping the prefixes gives back the stream's text |
| Relay.BlankChunksDropped | internal/task/terraform/terraform.go:158 | a stream of nothing but white space writes nothing |
| Relay.ChunkRelayedInPlace | internal/task/terraform/terraform.go:153-160 | each chunk, wherever it stands in the stream, writes its own `[name] `-prefixed line in its place, or nothing at all when it is white space only |
| Relay.RelayedAppend | internal/task/terraform/terraform.go:153-163 | relaying two runs of chunks writes the lines of the first run, then those of the second |
| Relay.Delivered | internal/task/terraform/terraform.go:153-167 | the chunks the reader loop writes: all of them for a cleanly ending stream, all but the partial last one after a read error |
| Relay.Emitted | internal/task/terraform/terraform.go:146-170 | what one relay writes: for a cleanly ending stream, the relay of its chunks; after a read error, the error line comes last |
| Relay.ReadErrorEndsRelay | internal/task/terraform/terraform.go:164-166 | a read error writes one error line, as the last line, after the complete lines read before it |
| TerraformEnv.AssignmentsExact | internal/task/terraform/terraform.go:108-110 | ranging over a map adds one `k=v` entry per key and nothing else |
| TerraformEnv.SubprocessEnv | internal/task/terraform/terraform.go:106-118 | the built `tf.Env` slice begins with the inherited environment, unchanged |
| TerraformEnv.EnvKeepsInherited | internal/task/terraform/terraform.go:106-118 | in the built `tf.Env` slice the inherited environment comes first, kept whole, followed by one entry per task variable and one per input value |
| TerraformEnv.EnvVarsSection | internal/task/terraform/terraform.go:108-110 | after the inherited entries come the task's variables as `k=v`, once each, and nothing else |
| TerraformEnv.TfVarsSection | internal/task/terraform/terraform.go:112-118 | the environment ends with every input value as `TF_VAR_k=v`, once each, and nothing else |
| TerraformEnv.NoVarsNoTfVarEntries | internal/task/terraform/terraform.go:112-118 | without input values no `TF_VAR_` entry is added |
| StateFiles.BackendKeyDistinguishes | internal/task/terraform/terraform.go:231-246 | tasks with different names get different backend files, so no two tasks keep their state in the same object |
| StateFiles.RenderBackend | internal/task/terraform/terraform.go:20-29 | the backend template with its four values filled in; the task name is the only value that differs between tasks, and `StateFiles.BackendKeyDistinguishes` shows it tells them apart |
| StateFiles.RenderRemoteState | internal/task/terraform/terraform.go:31-41 | the remote-state template filled in with the block's name and the settings it reads |
| StateFiles.RemoteStates | internal/task/terraform/terraform.go:264-287 | at most one block per listed key; `StateFiles.OneBlockPerRemoteState` shows that with a lawful order there is exactly one per requested remote state |
| StateFiles.OneBlockPerRemoteState | internal/task/terraform/terraform.go:264-287 | one remote-state block per requested remote state, named by its key and reading the state stored under its value, with no name repeated |
| StateFiles.WriteStateFiles | internal/task/terraform/terraform.go:199-218 | a store other than "aws" is refused with its name in the error; for "aws" the result is an error exactly when an open or a write fails |
| StateFiles.UnsupportedStoreTouchesNothing | internal/task/terraform/terraform.go:211-212 | an unsupported store is refused before any file is touched |
| StateFiles.AwsFilesWritten | internal/task/terraform/terraform.go:199-290 | when every open and write succeeds, the backend file is opened and filled, then the remote-state file is opened and one block written per remote state, then success is announced |
| Url.GetScheme | internal/task/terraform/terraform.go:54-57 | a leading colon is a missing-scheme error; otherwise a non-empty scheme is a valid scheme that the locator starts with, followed by a colon |
| Url.BeforeFragment | internal/task/terraform/terraform.go:54 | the part of the locator `url.Parse` parses: a prefix without `#`, followed in the locator by `#` when it is shorter |
| Url.Fragment | internal/task/terraform/terraform.go:54 | what follows the first `#`: empty when there is none, and otherwise the locator is the part before it, a `#`, and the fragment |
| Url.BadEscape | internal/task/terraform/terraform.go:54 | the unescaping scan of the fragment finds a malformed escape exactly when some `%` is not followed by two hexadecimal digits; what it reports starts with that `%` |
| Url.FirstBadEscape | internal/task/terraform/terraform.go:54 | behind well-formed escapes, the scan reports the first `%` that starts no escape, cut from there |
| Url.CutEscapeBytes | internal/task/terraform/terraform.go:54 | the reported escape is exactly the first three bytes of the UTF-8 encoding from the bad `%` on (all of it when shorter): whole characters, then a proper part of the encoding of a character the cut splits |
| Url.NotAnEscape | internal/task/terraform/terraform.go:54 | `%zz` is a malformed escape, reported whole |
| Url.TwoByteCharKept | internal/task/terraform/terraform.go:54 | in `%éab` the three bytes are `%` and the two bytes of `é`, so `%é` is reported |
| Url.SplitCharKeepsLeadByte | internal/task/terraform/terraform.go:54 | in `%aé` the cut splits `é`, and `%a` with the lead byte 0xC3 is reported |
| Url.SplitByteQuoted | internal/task/terraform/terraform.go:54 | a lead byte left by the cut appears in the error as `\xc3` |
| Url.Scheme | internal/task/terraform/terraform.go:54-59 | a control character before the fragment, or a leading colon, rejects the locator with an error quoting the part before the fragment; otherwise the locator is rejected exactly when its fragment holds a malformed `%`-escape, and that error quotes the whole locator; a reported scheme is lower-case |
| Url.FragmentIgnored | internal/task/terraform/terraform.go:54-59 | a fragment whose `%`-escapes are well formed plays no part in the scheme, whatever else it holds |
| Url.FragmentEscapeRefused | internal/task/terraform/terraform.go:54-57 | once the part before the fragment parses, a fragment with a malformed escape is refused, quoting the whole locator and the bad escape |
| Url.SchemeOfLocator | internal/task/terraform/terraform.go:54-59 | a locator that starts with a valid scheme and a colon, holds no control character before its fragment, and has only well-formed escapes in its fragment parses with that scheme, lower-cased |
| Url.FragmentOfLocator | internal/task/terraform/terraform.go:54-59 | behind a valid scheme and a plain locator, the fragment alone decides: well-formed escapes give the lower-cased scheme, a malformed one an error quoting the whole locator |
| Terraform.SchemeGate | internal/task/terraform/terraform.go:54-68 | a source passes exactly when it parses with scheme `http` or `https` |
| Terraform.CommandFor | internal/task/terraform/terraform.go:104-105 | terraform runs in the task's path with the requested subcommand |
| Terraform.ExecuteTerraform | internal/task/terraform/terraform.go:102-178 | when both pipes are set up, each relay writes the relay of its stream as its reader saw it, and both relays end before the call returns; without the pipes nothing is written; the result is the pipe error, else the start error, else the exit status |
| Terraform.TerraformRun | internal/task/terraform/terraform.go:102-178 | a terraform run succeeds exactly when both pipes are set up, the process starts and it exits cleanly |
| Terraform.TerraformRunShape | internal/task/terraform/terraform.go:120-177 | a terraform run records at most one action, the run of its command with both streams; it records it whenever it succeeds |
| Terraform.RunEnvironment | internal/task/terraform/terraform.go:106-118 | the built `tf.Env` slice of the subprocess keeps the inherited entries and gains no `TF_VAR_` entry when the task has no input values |
| Terraform.MkdirFailureStops | internal/task/terraform/terraform.go:50-52 | a failed directory creation stops `Validate` before anything else |
| Terraform.UnsupportedSchemeRefused | internal/task/terraform/terraform.go:50-68 | a scheme other than `http`/`https` is refused, naming the scheme, after the directory was created; nothing is cloned |
| Terraform.UnparsableSourceRefused | internal/task/terraform/terraform.go:50-57 | a source `url.Parse` rejects is refused with the parse error after the directory was created, quoting the locator the parser quotes (the part before the fragment, or the whole locator for a fragment escape error); nothing is cloned |
| Terraform.FragmentEscapesGated | internal/task/terraform/terraform.go:54-65 | behind a plain `https:` locator, the fragment passes the gate exactly when its `%`-escapes are well formed, whatever control characters it holds; a malformed escape is refused with an error quoting the whole locator |
| Terraform.ParseErrorOmitsFragment | internal/task/terraform/terraform.go:54-57 | the parse error of `:a#b` quotes `:a`, not the fragment |
| Terraform.SupportedSchemeClones | internal/task/terraform/terraform.go:59-65 | an `http`/`https` source proceeds to announce and clone the module into the task's path |
| Terraform.ValidateRunsInitThenValidate | internal/task/terraform/terraform.go:70-82 | when every stage succeeds, `Validate` returns nil after running `init` and then `validate` in the task's path |
| Terraform.Validate | internal/task/terraform/terraform.go:49-83 | `Validate` fails exactly when one of its six stages fails |
| Terraform.Plan | internal/task/terraform/terraform.go:85-87 | the `plan` run alone; `Terraform.PlanRunsPlan` states its result and action |
| Terraform.PlanRunsPlan | internal/task/terraform/terraform.go:85-87 | `Plan` runs exactly the `plan` subcommand and returns its result |
| StateProbe.ValidateAws | internal/task/state/state.go:61-116 | a passing probe leaves no probe object behind; no other object is changed, and no object is added except the probe object |
| StateProbe.ProbeFollowsStages | internal/task/state/state.go:61-116 | the probe returns the first failing call's error, and makes the calls of the stages up to that one, in order |
| StateProbe.ProbeFailsIffStageFails | internal/task/state/state.go:61-116 | the probe fails exactly when one of its six stages does |
| StateProbe.FaithfulStorePasses | internal/task/state/state.go:75-116 | against a store that serves back what was put and fails no call, the probe succeeds, makes every call, and leaves the store as it was except for the probe key |
| StateProbe.MismatchKeepsObject | internal/task/state/state.go:102-104 | a wrong read-back is reported with the wanted and the read value; the object is not deleted |
| StateProbe.ValidateConfig | internal/task/state/state.go:50-59 | a backend other than "aws" is refused, naming it, before any call |
| StateProbe.Validate | internal/task/state/state.go:20-32 | the "valid" verdict is printed exactly when the backend is "aws" and every stage of the round trip passes (session, put, get, read, compare, delete); the probe's error is returned unchanged |
| StateProbe.UnsupportedBackendRefused | internal/task/state/state.go:20-59 | an unsupported backend makes no call, changes no object, and prints the "invalid" verdict |
| Tasks.NewStateChecker | internal/task/state/state.go:118-126 | builds a state checker; without options its options are the zero values |
| Tasks.NewTerraformExecutor | internal/task/terraform/terraform.go:292-300 | builds a terraform executor; without options its options are the zero values |
| Tasks.Perform | internal/task/task.go:3-11 | `Apply`, `Destroy` and `Finalize` return nil for every task, and so does the state checker's `Plan`; these verbs go to the tasks' no-op methods |
| Tasks.FinalizersAllSucceed | internal/step/step.go:10 | in a validate run over real tasks, the second half of the calls is one `Finalize` per validated task, each returning nil |
| StepPlatform.InfraSteps | internal/step/platform.go:25-56 | the state check, then one single-task step per region, in region order, each that region's cluster task |
| StepPlatform.ClusterTask | internal/step/platform.go:37-50 | a region's cluster task; its options are stated by `StepPlatform.ClusterOptions` |
| StepPlatform.ClusterOptions | internal/step/platform.go:37-50 | a region's cluster task is named after the region with the `k8s` suffix, clones the provider's module from the base source, and declares the token, platform name and region |
| StepPlatform.K8sSteps | internal/step/platform.go:58-118 | the state check, then each region's steps; counted by `StepPlatform.K8sStepsCount`, each region's part stated by `StepPlatform.RegionStepsShape` |
| StepPlatform.K8sStepsCount | internal/step/platform.go:58-118 | the state check first, then two steps per region that is not `kind` and one per `kind` region |
| StepPlatform.RegionStepsShape | internal/step/platform.go:68-115 | a non-`kind` region gets a kubeconfig step, then a namespaces step that reads the kubeconfig file the first step writes; a `kind` region gets only the namespaces step, using the default kubeconfig |
| StepPlatform.KubeConfigTask | internal/step/platform.go:73-94 | a non-`kind` region's kubeconfig task; its options are stated by `StepPlatform.KubeConfigOptions` |
| StepPlatform.KubeConfigOptions | internal/step/platform.go:73-94 | the kubeconfig task's options: its name, source, path, remote state `k8s` and input values |
| StepPlatform.NamespacesTask | internal/step/platform.go:99-112 | a region's namespaces task; its options are stated by `StepPlatform.NamespacesOptions` |
| StepPlatform.NamespacesOptions | internal/step/platform.go:99-112 | the namespaces task's options: its name, source, path, `KUBE_CONFIG_PATH` and resource namespace |
| StepPlatform.KubeConfigReadsClusterState | internal/step/platform.go:75-79 | the kubeconfig task reads as remote state `k8s` the state of the cluster task that `InfraSteps` built for the same region |
| StepPlatform.KubeConfigBlockIsClusterBackend | internal/step/platform.go:73-94 | under any order a Go map range could take, the kubeconfig task writes one remote-state block, `k8s`, reading the bucket, table, key and region the same region's cluster task keeps its state in |
| StepPlatform.ResourceNamespaceLowered | internal/step/platform.go:104 | the resource namespace is the lower-cased platform name followed by `-resource`, with no upper-case letter left |
| KubernetesSteps.KubernetesStepsOf | internal/step/kubernetes/kubernetes.go:19-41 | never an error; two steps, the first holding one terraform task, the second empty |
| KubernetesSteps.ClusterTask | internal/step/kubernetes/kubernetes.go:22-36 | the cluster task; its options are stated by `KubernetesSteps.ClusterOptions` |
| KubernetesSteps.ClusterOptions | internal/step/kubernetes/kubernetes.go:22-36 | the cluster task's name, source, path and input values; no remote states |
| KubernetesSteps.StepsHoldClusterTask | internal/step/kubernetes/kubernetes.go:19-45 | the sequencer visits exactly one task, named `name-env-region-provider-k8s` and working under /tmp in that name |
| KubernetesSteps.ClusterSourceAccepted | internal/step/kubernetes/kubernetes.go:33 | the cluster's source passes the executor's scheme gate, as an `https` locator, exactly when the provider holds no control character before a `#` and has no malformed `%`-escape after one |
| PlatformSteps.Collect | internal/step/platform/platform.go:29-44 | the loop over the regions, stopping at the first builder error with it wrapped; `PlatformSteps.CollectShape` shows it never stops |
| PlatformSteps.CollectShape | internal/step/platform/platform.go:29-44 | the loop never fails; each region contributes its cluster step and an empty step, in region order |
| PlatformSteps.InfraSteps | internal/step/platform/platform.go:19-47 | the state check, then the regions' cluster steps; stated by `PlatformSteps.InfraStepsShape` |
| PlatformSteps.InfraStepsShape | internal/step/platform/platform.go:19-47 | never an error; the state check, then for region `i` its cluster step at `1 + 2i` and an empty step at `2 + 2i` |
| PlatformSteps.NoRegionsOnlyStateCheck | internal/step/platform/platform.go:22-27 | a platform without regions gets the state check alone |
| PlatformSteps.ClusterNamesAgree | internal/step/platform/platform.go:31-38 | this builder and `StepPlatform.InfraSteps` name and place a region's cluster task alike; they differ in its source |
| Text.ToLowerIsLower | internal/step/platform.go:104 | lower-casing leaves nothing to lower-case, and lower-casing twice changes nothing |

## Left out

- Effects are oracles, not performed. This covers the filesystem, `git`, the terraform subprocess, S3 and standard output. The model records what was attempted and what each effect reported.
- Goroutines and the channel join of `executeTerraform` are not modelled as such. The two relays run one after the other, and both end before the call returns. Interleaving across the two streams is not modelled.
- Terraform.ExecuteTerraform: `return tf.Wait()` is evaluated before the deferred receives, and `Wait` closes the pipes once the process exits. A relay can therefore lose the rest of its stream and end in a read error. The model takes each stream as its reader saw it, from the `Process` oracle, and does not derive when such a cut happens.
- TerraformEnv.EnvKeepsInherited: states the built `tf.Env` slice. Before starting the child, os/exec removes duplicate keys and keeps the last value for each. That step is not modelled, so a task variable that shadows an inherited one appears twice in the modelled slice.
- Go randomises the order of every `range` over a map, so two ranges over the same map may differ. `MapRange.Order` returns one fixed order per map. Every property about a range is proved for every lawful order, so it holds whichever order a range takes.
- The configuration registry (viper) is replaced by an explicit `Settings.Config`. The doc comment on `Settings.Config` lists the registry's defaults.
- The task interface's `Options()` and `String()` are not modelled. Neither is the untyped `Context` beyond its two keys, which become typed fields.
- The sequencer's other verbs and the command-line wiring under cmd/ are not part of this model.
- Url.Scheme: only the fragment cut, the control-character check, the scheme scan and the unescaping of the fragment in `url.Parse` are modelled. Its other rejections (malformed escapes in the path, bad hosts and ports) are not, and neither is Go's escaping of quotes, backslashes and non-printable characters when it quotes the locator or the escape in an error. A byte the escape's three-byte cut leaves of a split character is shown as `\x` and two hexadecimal digits, as Go shows it.
- Url.SchemeOfLocator: the locator after the scheme is only checked for control characters and fragment escapes. `url.Parse` also refuses a malformed escape in the path and a bad host or port, so such a locator is accepted here and refused by the source.
- Url.FragmentOfLocator: the same gap as `Url.SchemeOfLocator` for the part between the scheme and the `#`.
- Terraform.FragmentEscapesGated: the same gap for `rest`. A `rest` with a malformed path escape or a bad host passes here but is refused by the source.
- Terraform.UnparsableSourceRefused: covers the rejections `Url.Scheme` models. A source refused only for a malformed path escape, a bad host or a bad port is accepted by the model.
- KubernetesSteps.ClusterSourceAccepted: the provider lands in the locator's path. A malformed `%`-escape in the provider before any `#` makes `url.Parse` refuse the source, but the model does not check path escapes and accepts it.
- Text: Go strings and process output are byte sequences, while the model's strings are sequences of Unicode characters. Where the source counts bytes, in the three-byte cut of a malformed escape, the model counts the bytes of the UTF-8 encoding (`Text.Utf8`). With that, the model is exact for valid UTF-8. It does not cover streams that are not valid UTF-8.
- StateFiles.Join: `filepath.Join` is plain concatenation with a separator; path cleaning is not modelled.
- Text.ToLower: lower-cases ASCII letters only; Go's `strings.ToLower` is Unicode-aware.
- File contents are not modelled. Opening without `O_TRUNC` can leave stale bytes after a shorter write, and the model does not track this. `Close` calls are not modelled either.
- The `git` progress output written to standard output during a clone is not modelled.
- `template.Must` cannot panic on the two constant templates. Template execution is plain substitution.
- The AWS session's credentials and endpoint resolution are folded into the `session` oracle. The body's `Close` is not modelled.
- Terraform.SupportedSchemeClones: states only the first three actions of `Validate` for an accepted source. The later stages are covered by `Stages.RunStagesFirstFailure` and `Terraform.ValidateRunsInitThenValidate`.
- Terraform.ValidateRunsInitThenValidate: states only the last two actions of a fully successful `Validate`.
- StepPlatform.K8sStepsCount: states the number of steps and the first one. Each region's steps are stated separately by `StepPlatform.RegionStepsShape`.

=== FILE: kubernetes.dfy ===
/** The per-cluster step builder of internal/step/kubernetes: one region's
    cluster as a single terraform task, followed by an empty step. The
    `token` setting it reads comes from an explicit `Config`. */
module KubernetesSteps {
  import opened Wrappers
  import opened Text
  import opened Settings
  import opened Options
  import opened Steps
  import opened Tasks
  import Url
  import Terraform

  datatype Kubernetes = Kubernetes(name: string, env: string, provider: string, region: string)

  /** `internalName`: `Name-Env-Region-Provider-suffix`. */
  function InternalName(k: Kubernetes, suffix: string): string
  {
    k.name + "-" + k.env + "-" + k.region + "-" + k.provider + "-" + suffix
  }

  /** The repository the cluster module is cloned from: always on GitHub,
      whatever the `base-source` setting says. */
  function ClusterSource(k: Kubernetes): string
  {
    ClusterScheme + ":" + (ClusterRepoPrefix + k.provider + GitSuffix)
  }

  /** `https://github.com/w-h-a/kubernetes-<provider>.git`, in parts. */
  const ClusterScheme := "https"
  const ClusterRepoPrefix := "//github.com/w-h-a/kubernetes-"
  const GitSuffix := ".git"

  /** The cluster task. */
  function ClusterTask(config: Config, k: Kubernetes): Task
  {
    var name := InternalName(k, "k8s");
    NewTerraformExecutor([
      TaskWithName(name),
      TaskWithSource(ClusterSource(k)),
      TaskWithPath("/tmp/" + name),
      TerraformWithVars(map["token" := config.token, "name" := k.name, "env" := k.env, "region" := k.region])])
  }

  /** `Steps`: the cluster task alone in one step, then an empty step. Its
      error is always nil. */
  function KubernetesStepsOf(config: Config, k: Kubernetes): (r: Result<seq<Step<Task>>, string>)
    ensures r.Success?
    ensures |r.value| == 2 && r.value[1] == []
    ensures |r.value[0]| == 1 && r.value[0][0].TerraformExecutor?
  {
    Success([[ClusterTask(config, k)], []])
  }

  // ---------------------------------------------------------------------
  // What the builder promises.

  /** The options the cluster task is built with: every field but the
      remote states is set, and the variables carry the token and the
      cluster's identity. */
  lemma ClusterOptions(config: Config, k: Kubernetes)
    ensures var name := InternalName(k, "k8s");
      ClusterTask(config, k) == TerraformExecutor(TaskOptions(
        name, ClusterSource(k), "/tmp/" + name, None,
        Some(map["token" := config.token, "name" := k.name, "env" := k.env, "region" := k.region]), None))
  {
    var name := InternalName(k, "k8s");
    FoldFour(Background, TaskWithName(name), TaskWithSource(ClusterSource(k)), TaskWithPath("/tmp/" + name),
             TerraformWithVars(map["token" := config.token, "name" := k.name, "env" := k.env, "region" := k.region]));
  }

  /** The step list holds one task, named after the cluster with the `k8s`
      suffix and working in that name's directory under /tmp. */
  lemma StepsHoldClusterTask(config: Config, k: Kubernetes)
    ensures var steps := KubernetesStepsOf(config, k).value;
      var t := steps[0][0];
      && Flatten(steps) == [Pos(0, 0)]
      && t.options.name == InternalName(k, "k8s")
      && t.options.path == "/tmp/" + t.options.name
      && t.options.remoteStates == None
  {
    ClusterOptions(config, k);
    var steps := KubernetesStepsOf(config, k).value;
    FlattenOfShape(steps);
  }

  lemma FlattenOfShape(steps: seq<Step<Task>>)
    requires |steps| == 2 && |steps[0]| == 1 && steps[1] == []
    ensures Flatten(steps) == [Pos(0, 0)]
  {
    assert steps[..1][..0] == [];
    assert Flatten(steps[..1]) == Positions(0, 1);
    assert steps[..1] == steps[..|steps| - 1];
  }

  /** The cluster source passes the executor's scheme gate, as an `https`
      locator, exactly when the provider holds no control character before a
      `#` and every `%` after a `#` starts a well-formed escape. */
  lemma ClusterSourceAccepted(k: Kubernetes)
    ensures var tail := k.provider + GitSuffix;
      Url.Scheme(ClusterSource(k)) == Success("https") <==>
        Url.NoControl(Url.BeforeFragment(tail)) && Url.WellEscaped(Url.Fragment(tail))
    ensures var tail := k.provider + GitSuffix;
      Terraform.SchemeGate(ClusterSource(k)).Pass? <==>
        Url.NoControl(Url.BeforeFragment(tail)) && Url.WellEscaped(Url.Fragment(tail))
  {
    var pre := ClusterScheme + ":" + ClusterRepoPrefix;
    var tail := k.provider + GitSuffix;
    var rest := ClusterRepoPrefix + tail;
    assert ClusterSource(k) == pre + tail;
    assert ClusterSource(k) == ClusterScheme + ":" + rest;
    PrefixPlain();
    Url.BeforeFragmentAppend(pre, tail);
    Url.NoControlAppend(pre, Url.BeforeFragment(tail));
    if Url.NoControl(Url.BeforeFragment(tail)) && Url.WellEscaped(Url.Fragment(tail)) {
      Url.SchemeOfLocator(ClusterScheme, rest);
    }
  }

  /** The fixed part of the cluster source is an `https` scheme and a
      locator prefix without `#` or control characters. */
  lemma PrefixPlain()
    ensures Url.ValidScheme(ClusterScheme) && ToLower(ClusterScheme) == "https"
    ensures var pre := ClusterScheme + ":" + ClusterRepoPrefix; '#' !in pre && Url.NoControl(pre)
  {
  }
}

=== FILE: maprange.dfy ===
/** Go's `for k, v := range m` visits every key of `m` exactly once, in an
    unspecified order. The model takes that order as an oracle. */
module MapRange {
  import opened Seqs

  /** The key order a `range` over a map chose. */
  type Order = map<string, string> -> seq<string>

  /** `keys` lists every key of `m` once and nothing else. */
  predicate Enumerates(keys: seq<string>, m: map<string, string>)
  {
    && Distinct(keys)
    && (forall i :: 0 <= i < |keys| ==> keys[i] in m)
    && (forall k :: k in m ==> k in keys)
  }

  /** An order that could have come from Go's runtime: every map is enumerated. */
  ghost predicate Lawful(order: Order)
  {
    forall m :: Enumerates(order(m), m)
  }

  /** A lawful order visits exactly as many keys as the map holds. */
  lemma {:induction false} EnumeratesSize(keys: seq<string>, m: map<string, string>)
    requires Enumerates(keys, m)
    ensures |keys| == |m|
  {
    if |keys| == 0 {
      assert forall k :: k !in m;
      assert m.Keys == {};
    } else {
      var k := keys[0];
      var m' := map x | x in m && x != k :: m[x];
      assert m'.Keys == m.Keys - {k};
      forall i | 0 <= i < |keys[1..]|
        ensures keys[1..][i] in m'
      {
        assert keys[1..][i] == keys[i + 1] != keys[0];
      }
      forall x | x in m'
        ensures x in keys[1..]
      {
        assert x in keys;
        var j :| 0 <= j < |keys| && keys[j] == x;
        assert j != 0;
        assert keys[1..][j - 1] == x;
      }
      EnumeratesSize(keys[1..], m');
    }
  }
}

=== FILE: options.dfy ===
/** A task's options (internal/task/options.go) and the functional options that
    build them, including the two executor-specific ones
    (internal/task/terraform/options.go). The untyped context side channel is
    replaced by two typed fields: `vars` and `remoteStates` are `None` exactly
    when the context holds no binding for their key. */
module Options {
  import opened Wrappers

  datatype TaskOptions = TaskOptions(
    name: string,
    source: string,
    path: string,
    envVars: Option<map<string, string>>,
    vars: Option<map<string, string>>,          // context key "tf_vars_key"
    remoteStates: Option<map<string, string>>   // context key "tf_remote_states_key"
  )

  /** One functional option: each sets a single field of `TaskOptions`. */
  datatype TaskOption =
    | TaskWithName(name: string)
    | TaskWithSource(source: string)
    | TaskWithPath(path: string)
    | TaskWithEnvVars(envVars: map<string, string>)
    | TerraformWithVars(vars: map<string, string>)
    | TerraformWithRemoteStates(remoteStates: map<string, string>)

  /** The fields of `TaskOptions`, so that "only this field changes" can be said. */
  datatype Field = Name | Source | Path | EnvVars | Vars | RemoteStates

  datatype Value = Text(text: string) | Table(table: Option<map<string, string>>)

  function Get(o: TaskOptions, f: Field): Value
  {
    match f
    case Name => Text(o.name)
    case Source => Text(o.source)
    case Path => Text(o.path)
    case EnvVars => Table(o.envVars)
    case Vars => Table(o.vars)
    case RemoteStates => Table(o.remoteStates)
  }

  /** The field an option writes. */
  function Target(opt: TaskOption): Field
  {
    match opt
    case TaskWithName(_) => Name
    case TaskWithSource(_) => Source
    case TaskWithPath(_) => Path
    case TaskWithEnvVars(_) => EnvVars
    case TerraformWithVars(_) => Vars
    case TerraformWithRemoteStates(_) => RemoteStates
  }

  /** The value an option writes into its field. */
  function Carried(opt: TaskOption): Value
  {
    match opt
    case TaskWithName(n) => Text(n)
    case TaskWithSource(s) => Text(s)
    case TaskWithPath(p) => Text(p)
    case TaskWithEnvVars(ev) => Table(Some(ev))
    case TerraformWithVars(v) => Table(Some(v))
    case TerraformWithRemoteStates(rs) => Table(Some(rs))
  }

  /** Options that agree on every field are the same options. */
  lemma Extensionality(a: TaskOptions, b: TaskOptions)
    requires forall f :: Get(a, f) == Get(b, f)
    ensures a == b
  {
    assert Get(a, Name) == Get(b, Name);
    assert Get(a, Source) == Get(b, Source);
    assert Get(a, Path) == Get(b, Path);
    assert Get(a, EnvVars) == Get(b, EnvVars);
    assert Get(a, Vars) == Get(b, Vars);
    assert Get(a, RemoteStates) == Get(b, RemoteStates);
  }

  /** Running one option on the options record. */
  function Apply(o: TaskOptions, opt: TaskOption): (r: TaskOptions)
    ensures Get(r, Target(opt)) == Carried(opt)
    ensures forall f :: f != Target(opt) ==> Get(r, f) == Get(o, f)
  {
    match opt
    case TaskWithName(n) => o.(name := n)
    case TaskWithSource(s) => o.(source := s)
    case TaskWithPath(p) => o.(path := p)
    case TaskWithEnvVars(ev) => o.(envVars := Some(ev))
    case TerraformWithVars(v) => o.(vars := Some(v))
    case TerraformWithRemoteStates(rs) => o.(remoteStates := Some(rs))
  }

  /** Zero values, with the background context: no name, source or path, no
      environment variables, and nothing bound in the context. */
  const Background := TaskOptions("", "", "", None, None, None)

  /** Runs the options left to right. */
  function Fold(o: TaskOptions, opts: seq<TaskOption>): TaskOptions
    decreases |opts|
  {
    if |opts| == 0 then o else Fold(Apply(o, opts[0]), opts[1..])
  }

  /** Independent description of the fold: a field holds what the LAST option
      that targets it carried, or its starting value when none does. */
  function LastSetting(opts: seq<TaskOption>, f: Field, start: Value): Value
  {
    if |opts| == 0 then start
    else if Target(opts[|opts| - 1]) == f then Carried(opts[|opts| - 1])
    else LastSetting(opts[..|opts| - 1], f, start)
  }

  lemma {:induction false} FoldSnoc(o: TaskOptions, opts: seq<TaskOption>, x: TaskOption)
    ensures Fold(o, opts + [x]) == Apply(Fold(o, opts), x)
    decreases |opts|
  {
    if |opts| == 0 {
      assert opts + [x] == [x];
    } else {
      assert (opts + [x])[1..] == opts[1..] + [x];
      FoldSnoc(Apply(o, opts[0]), opts[1..], x);
    }
  }

  lemma {:induction false} FoldAppend(o: TaskOptions, a: seq<TaskOption>, b: seq<TaskOption>)
    ensures Fold(o, a + b) == Fold(Fold(o, a), b)
    decreases |a|
  {
    if |a| == 0 {
      assert a + b == b;
    } else {
      assert (a + b)[1..] == a[1..] + b;
      FoldAppend(Apply(o, a[0]), a[1..], b);
    }
  }

  /** The left-to-right fold agrees with "the last option for a field wins". */
  lemma {:induction false} FoldLastWins(o: TaskOptions, opts: seq<TaskOption>)
    ensures forall f :: Get(Fold(o, opts), f) == LastSetting(opts, f, Get(o, f))
    decreases |opts|
  {
    if |opts| > 0 {
      var init := opts[..|opts| - 1];
      var x := opts[|opts| - 1];
      assert opts == init + [x];
      FoldSnoc(o, init, x);
      FoldLastWins(o, init);
    }
  }

  /** `NewTaskOptions(opts...)`: start from zero values and the background
      context, then apply every option in order. */
  function NewTaskOptions(opts: seq<TaskOption>): (r: TaskOptions)
    ensures forall f :: Get(r, f) == LastSetting(opts, f, Get(Background, f))
    ensures opts == [] ==>
      r.name == "" && r.source == "" && r.path == "" &&
      r.envVars == None && r.vars == None && r.remoteStates == None
  {
    FoldLastWins(Background, opts);
    Fold(Background, opts)
  }

  /** A later option for the same field overrides an earlier one. */
  lemma LaterOverrides(o: TaskOptions, a: TaskOption, b: TaskOption)
    requires Target(a) == Target(b)
    ensures Apply(Apply(o, a), b) == Apply(o, b)
  {
    forall f
      ensures Get(Apply(Apply(o, a), b), f) == Get(Apply(o, b), f)
    {
    }
    Extensionality(Apply(Apply(o, a), b), Apply(o, b));
  }

  /** Options for different fields commute. */
  lemma ApplyCommutes(o: TaskOptions, a: TaskOption, b: TaskOption)
    requires Target(a) != Target(b)
    ensures Apply(Apply(o, a), b) == Apply(Apply(o, b), a)
  {
    forall f
      ensures Get(Apply(Apply(o, a), b), f) == Get(Apply(Apply(o, b), a), f)
    {
    }
    Extensionality(Apply(Apply(o, a), b), Apply(Apply(o, b), a));
  }

  /** Swapping two adjacent options for different fields anywhere in the
      option list builds the same options. */
  lemma OptionsCommute(p: seq<TaskOption>, a: TaskOption, b: TaskOption, q: seq<TaskOption>)
    requires Target(a) != Target(b)
    ensures NewTaskOptions(p + [a, b] + q) == NewTaskOptions(p + [b, a] + q)
  {
    var mid := Fold(Background, p);
    FoldAppend(Background, p + [a, b], q);
    FoldAppend(Background, p + [b, a], q);
    FoldAppend(Background, p, [a, b]);
    FoldAppend(Background, p, [b, a]);
    assert [a, b][1..] == [b];
    assert [b, a][1..] == [a];
    ApplyCommutes(mid, a, b);
  }

  /** A field no option targets keeps its zero value. */
  lemma {:induction false} UntouchedFieldKeepsStart(opts: seq<TaskOption>, f: Field, start: Value)
    requires forall i :: 0 <= i < |opts| ==> Target(opts[i]) != f
    ensures LastSetting(opts, f, start) == start
  {
    if |opts| > 0 {
      UntouchedFieldKeepsStart(opts[..|opts| - 1], f, start);
    }
  }

  /** The fold over a short literal list of options, unrolled. */
  lemma FoldFour(o: TaskOptions, a: TaskOption, b: TaskOption, c: TaskOption, d: TaskOption)
    ensures Fold(o, [a, b, c, d]) == Apply(Apply(Apply(Apply(o, a), b), c), d)
  {
    var o1, o2, o3 := Apply(o, a), Apply(Apply(o, a), b), Apply(Apply(Apply(o, a), b), c);
    assert [a, b, c, d][1..] == [b, c, d];
    assert [b, c, d][1..] == [c, d];
    assert [c, d][1..] == [d];
    assert [d][1..] == [];
    assert Fold(o3, [d]) == Fold(Apply(o3, d), []);
    assert Fold(o2, [c, d]) == Fold(o3, [d]);
    assert Fold(o1, [b, c, d]) == Fold(o2, [c, d]);
  }

  lemma FoldFive(o: TaskOptions, a: TaskOption, b: TaskOption, c: TaskOption, d: TaskOption, e: TaskOption)
    ensures Fold(o, [a, b, c, d, e]) == Apply(Apply(Apply(Apply(Apply(o, a), b), c), d), e)
  {
    assert [a, b, c, d, e][1..] == [b, c, d, e];
    FoldFour(Apply(o, a), b, c, d, e);
  }
}

=== FILE: platform.dfy ===
/** The platform step builders of internal/step/platform.go: the step lists
    that provision a platform's clusters (`InfraSteps`) and then configure them
    (`K8sSteps`). Settings the builders read from the configuration registry
    come from an explicit `Config`. */
module StepPlatform {
  import opened Wrappers
  import opened Seqs
  import opened Text
  import opened Settings
  import opened Options
  import opened Steps
  import opened Tasks
  import MapRange
  import TerraformOptions
  import StateFiles

  datatype Region = Region(provider: string, region: string)

  datatype Platform = Platform(name: string, env: string, domain: string, regions: seq<Region>)

  /** `internalName`: `Name-Env-Region-Provider-suffix`. */
  function InternalName(p: Platform, r: Region, suffix: string): string
  {
    p.name + "-" + p.env + "-" + r.region + "-" + r.provider + "-" + suffix
  }

  /** The name of the state checker that opens every platform step list. */
  function StateCheckName(p: Platform): string
  {
    p.name + "check my state"
  }

  function StateCheckStep(p: Platform): Step<Task>
  {
    [NewStateChecker([TaskWithName(StateCheckName(p))])]
  }

  function WorkDir(name: string): string
  {
    "/tmp/" + name
  }

  /** The cluster task of one region. */
  function ClusterTask(config: Config, p: Platform, r: Region): Task
  {
    var name := InternalName(p, r, "k8s");
    NewTerraformExecutor([
      TaskWithName(name),
      TaskWithSource(config.baseSource + "/kubernetes-" + r.provider + ".git"),
      TaskWithPath(WorkDir(name)),
      TerraformWithVars(map["do_token" := config.doToken, "name" := p.name, "region" := r.region])])
  }

  /** `InfraSteps`: check the remote state, then one single-task step per
      region, in region order. Its error is always nil. */
  function InfraSteps(config: Config, p: Platform): (steps: seq<Step<Task>>)
    ensures |steps| == 1 + |p.regions|
    ensures steps[0] == StateCheckStep(p)
    ensures forall i :: 0 <= i < |p.regions| ==> steps[i + 1] == [ClusterTask(config, p, p.regions[i])]
  {
    [StateCheckStep(p)] + seq(|p.regions|, i requires 0 <= i < |p.regions| => [ClusterTask(config, p, p.regions[i])])
  }

  /** The `KUBE_CONFIG_PATH` a region's namespaces task runs with. */
  function KubeConfigPath(p: Platform, r: Region): string
  {
    if r.provider != "kind" then WorkDir(InternalName(p, r, "kubeconfig")) + "/kubeconfig" else "~/.kube/config"
  }

  /** The kubeconfig task of a region that is not `kind`: it reads the
      cluster's state through the remote state `k8s`. */
  function KubeConfigTask(config: Config, p: Platform, r: Region): Task
  {
    var name := InternalName(p, r, "kubeconfig");
    NewTerraformExecutor([
      TaskWithName(name),
      TaskWithSource(config.baseSource + "/kubeconfig.git"),
      TaskWithPath(WorkDir(name)),
      TerraformWithRemoteStates(map["k8s" := InternalName(p, r, "k8s")]),
      TerraformWithVars(map["do_token" := config.doToken, "kubernetes" := r.provider])])
  }

  /** The namespaces task of a region. */
  function NamespacesTask(config: Config, p: Platform, r: Region): Task
  {
    var name := InternalName(p, r, "namespaces");
    NewTerraformExecutor([
      TaskWithName(name),
      TaskWithSource(config.baseSource + "/kubernetes-namespaces.git"),
      TaskWithPath(WorkDir(name)),
      TaskWithEnvVars(map["KUBE_CONFIG_PATH" := KubeConfigPath(p, r)]),
      TerraformWithVars(map["resource_namespace" := ToLower(p.name + "-resource")])])
  }

  /** A region's steps in `K8sSteps`: the kubeconfig step unless the region
      is `kind`, then the namespaces step. */
  function RegionSteps(config: Config, p: Platform, r: Region): (steps: seq<Step<Task>>)
  {
    (if r.provider != "kind" then [[KubeConfigTask(config, p, r)]] else []) + [[NamespacesTask(config, p, r)]]
  }

  function RegionStepsOf(config: Config, p: Platform, rs: seq<Region>): (r: seq<seq<Step<Task>>>)
    ensures |r| == |rs|
    ensures forall i :: 0 <= i < |rs| ==> r[i] == RegionSteps(config, p, rs[i])
  {
    seq(|rs|, i requires 0 <= i < |rs| => RegionSteps(config, p, rs[i]))
  }

  /** `K8sSteps`: check the remote state, then each region's steps, in region
      order. Its error is always nil. */
  function K8sSteps(config: Config, p: Platform): seq<Step<Task>>
  {
    [StateCheckStep(p)] + Flat(RegionStepsOf(config, p, p.regions))
  }

  // ---------------------------------------------------------------------
  // What the builders promise.

  /** How many steps a run of regions contributes to `K8sSteps`. */
  function K8sStepCount(rs: seq<Region>): nat
  {
    if |rs| == 0 then 0 else K8sStepCount(rs[..|rs| - 1]) + (if rs[|rs| - 1].provider != "kind" then 2 else 1)
  }

  lemma RegionStepsCount(config: Config, p: Platform, r: Region)
    ensures |RegionSteps(config, p, r)| == if r.provider != "kind" then 2 else 1
  {
  }

  lemma RegionStepsOfSnoc(config: Config, p: Platform, rs: seq<Region>)
    requires |rs| > 0
    ensures RegionStepsOf(config, p, rs) == RegionStepsOf(config, p, rs[..|rs| - 1]) + [RegionSteps(config, p, rs[|rs| - 1])]
  {
  }

  lemma {:induction false} RegionStepsLength(config: Config, p: Platform, rs: seq<Region>)
    ensures |Flat(RegionStepsOf(config, p, rs))| == K8sStepCount(rs)
    decreases |rs|
  {
    if |rs| > 0 {
      var init, last := rs[..|rs| - 1], RegionSteps(config, p, rs[|rs| - 1]);
      RegionStepsLength(config, p, init);
      RegionStepsOfSnoc(config, p, rs);
      FlatSnoc(RegionStepsOf(config, p, init), last);
      RegionStepsCount(config, p, rs[|rs| - 1]);
    }
  }

  /** `K8sSteps` has the state check and then two steps per region that is
      not `kind` and one per `kind` region. */
  lemma K8sStepsCount(config: Config, p: Platform)
    ensures |K8sSteps(config, p)| == 1 + K8sStepCount(p.regions)
    ensures K8sSteps(config, p)[0] == StateCheckStep(p)
  {
    RegionStepsLength(config, p, p.regions);
  }

  /** A region that is not `kind` gets a kubeconfig step and then a namespaces
      step reading the kubeconfig that step writes; a `kind` region gets only
      the namespaces step, using the default kubeconfig. */
  lemma RegionStepsShape(config: Config, p: Platform, r: Region)
    ensures r.provider != "kind" ==>
      && RegionSteps(config, p, r) == [[KubeConfigTask(config, p, r)], [NamespacesTask(config, p, r)]]
      && KubeConfigPath(p, r) == WorkDir(KubeConfigTask(config, p, r).options.name) + "/kubeconfig"
    ensures r.provider == "kind" ==>
      RegionSteps(config, p, r) == [[NamespacesTask(config, p, r)]] && KubeConfigPath(p, r) == "~/.kube/config"
  {
    KubeConfigOptions(config, p, r);
  }

  /** The options a region's cluster task is built with. */
  lemma ClusterOptions(config: Config, p: Platform, r: Region)
    ensures var name := InternalName(p, r, "k8s");
      ClusterTask(config, p, r) == TerraformExecutor(TaskOptions(
        name, config.baseSource + "/kubernetes-" + r.provider + ".git", "/tmp/" + name, None,
        Some(map["do_token" := config.doToken, "name" := p.name, "region" := r.region]), None))
  {
    var name := InternalName(p, r, "k8s");
    FoldFour(Background, TaskWithName(name), TaskWithSource(config.baseSource + "/kubernetes-" + r.provider + ".git"),
             TaskWithPath(WorkDir(name)),
             TerraformWithVars(map["do_token" := config.doToken, "name" := p.name, "region" := r.region]));
  }

  /** The options a region's kubeconfig task is built with. */
  lemma KubeConfigOptions(config: Config, p: Platform, r: Region)
    ensures var name := InternalName(p, r, "kubeconfig");
      KubeConfigTask(config, p, r) == TerraformExecutor(TaskOptions(
        name, config.baseSource + "/kubeconfig.git", "/tmp/" + name, None,
        Some(map["do_token" := config.doToken, "kubernetes" := r.provider]),
        Some(map["k8s" := InternalName(p, r, "k8s")])))
  {
    var name := InternalName(p, r, "kubeconfig");
    FoldFive(Background, TaskWithName(name), TaskWithSource(config.baseSource + "/kubeconfig.git"), TaskWithPath(WorkDir(name)),
             TerraformWithRemoteStates(map["k8s" := InternalName(p, r, "k8s")]),
             TerraformWithVars(map["do_token" := config.doToken, "kubernetes" := r.provider]));
  }

  /** The options a region's namespaces task is built with. */
  lemma NamespacesOptions(config: Config, p: Platform, r: Region)
    ensures var name := InternalName(p, r, "namespaces");
      NamespacesTask(config, p, r) == TerraformExecutor(TaskOptions(
        name, config.baseSource + "/kubernetes-namespaces.git", "/tmp/" + name,
        Some(map["KUBE_CONFIG_PATH" := KubeConfigPath(p, r)]),
        Some(map["resource_namespace" := ToLower(p.name + "-resource")]), None))
  {
    var name := InternalName(p, r, "namespaces");
    FoldFive(Background, TaskWithName(name), TaskWithSource(config.baseSource + "/kubernetes-namespaces.git"),
             TaskWithPath(WorkDir(name)), TaskWithEnvVars(map["KUBE_CONFIG_PATH" := KubeConfigPath(p, r)]),
             TerraformWithVars(map["resource_namespace" := ToLower(p.name + "-resource")]));
  }

  /** The kubeconfig task reads, as remote state `k8s`, the state of the very
      cluster task `InfraSteps` built for the same region. */
  lemma KubeConfigReadsClusterState(config: Config, p: Platform, i: nat)
    requires i < |p.regions| && p.regions[i].provider != "kind"
    ensures var cluster := InfraSteps(config, p)[i + 1][0];
      var kc := KubeConfigTask(config, p, p.regions[i]);
      kc.options.remoteStates == Some(map["k8s" := cluster.options.name])
  {
    ClusterOptions(config, p, p.regions[i]);
    KubeConfigOptions(config, p, p.regions[i]);
  }

  /** Under any order Go's map range could take, the kubeconfig task writes
      a single remote-state block, `k8s`, that reads the very bucket, table,
      key and region the cluster task's backend writes its state to. */
  lemma KubeConfigBlockIsClusterBackend(config: Config, p: Platform, i: nat, order: MapRange.Order)
    requires i < |p.regions| && p.regions[i].provider != "kind"
    requires MapRange.Lawful(order)
    ensures var cluster := InfraSteps(config, p)[i + 1][0];
      var states := TerraformOptions.RemoteStatesOf(KubeConfigTask(config, p, p.regions[i]).options);
      StateFiles.RemoteStates(config, states, order(states))
        == [StateFiles.RemoteState("k8s", StateFiles.Backend(config, cluster.options.name))]
  {
    KubeConfigReadsClusterState(config, p, i);
    var cluster := InfraSteps(config, p)[i + 1][0];
    var states := TerraformOptions.RemoteStatesOf(KubeConfigTask(config, p, p.regions[i]).options);
    assert states == map["k8s" := cluster.options.name];
    var keys := order(states);
    assert MapRange.Enumerates(keys, states);
    MapRange.EnumeratesSize(keys, states);
    assert keys == ["k8s"];
    assert keys[..0] == [];
  }

  /** The namespace every region's namespaces task creates is the platform
      name with `-resource` appended, lower-cased. */
  lemma ResourceNamespaceLowered(config: Config, p: Platform, r: Region)
    ensures var vars := NamespacesTask(config, p, r).options.vars;
      && vars.Some? && "resource_namespace" in vars.value
      && IsLower(vars.value["resource_namespace"])
      && vars.value["resource_namespace"] == ToLower(p.name) + "-resource"
  {
    NamespacesOptions(config, p, r);
    ToLowerIsLower(p.name + "-resource");
    ToLowerAppend(p.name, "-resource");
    ToLowerOfLower("-resource");
  }
}

=== FILE: platform_steps.dfy ===
/** The platform builder of internal/step/platform: the state check, then
    each region's cluster steps as the per-cluster builder makes them, in
    region order. The platform and region records are those of
    `StepPlatform`; the `Region` type of this Go package is not part of this
    model, only its `Provider` and `Region` fields are read. */
module PlatformSteps {
  import opened Wrappers
  import opened Settings
  import opened Steps
  import opened Tasks
  import StepPlatform
  import KubernetesSteps

  /** The cluster a region of a platform is built as. */
  function ClusterOf(p: StepPlatform.Platform, r: StepPlatform.Region): KubernetesSteps.Kubernetes
  {
    KubernetesSteps.Kubernetes(p.name, p.env, r.provider, r.region)
  }

  const WrapPrefix := "failed to create kubernetes steps: "

  /** The loop over the regions: append each region's cluster steps, or stop
      at the first region whose builder fails, wrapping its error. */
  function Collect(config: Config, p: StepPlatform.Platform, rs: seq<StepPlatform.Region>): Result<seq<Step<Task>>, string>
    decreases |rs|
  {
    if |rs| == 0 then Success([])
    else
      var front := Collect(config, p, rs[..|rs| - 1]);
      var cluster := KubernetesSteps.KubernetesStepsOf(config, ClusterOf(p, rs[|rs| - 1]));
      if front.Failure? then front
      else if cluster.Failure? then Failure(WrapPrefix + cluster.error)
      else Success(front.value + cluster.value)
  }

  /** `InfraSteps`: the state check, then the regions' cluster steps. */
  function InfraSteps(config: Config, p: StepPlatform.Platform): Result<seq<Step<Task>>, string>
  {
    var rest := Collect(config, p, p.regions);
    if rest.Failure? then Failure(rest.error) else Success([StepPlatform.StateCheckStep(p)] + rest.value)
  }

  // ---------------------------------------------------------------------
  // What the builder promises.

  /** Every region contributes its cluster step and an empty step, in
      region order; the loop never fails. */
  lemma {:induction false} CollectShape(config: Config, p: StepPlatform.Platform, rs: seq<StepPlatform.Region>)
    ensures var r := Collect(config, p, rs);
      && r.Success?
      && |r.value| == 2 * |rs|
      && forall i :: 0 <= i < |rs| ==>
           r.value[2 * i] == [KubernetesSteps.ClusterTask(config, ClusterOf(p, rs[i]))] && r.value[2 * i + 1] == []
    decreases |rs|
  {
    if |rs| > 0 {
      var init := rs[..|rs| - 1];
      CollectShape(config, p, init);
      var front := Collect(config, p, init).value;
      var last := KubernetesSteps.KubernetesStepsOf(config, ClusterOf(p, rs[|rs| - 1])).value;
      var all := front + last;
      forall i | 0 <= i < |rs|
        ensures all[2 * i] == [KubernetesSteps.ClusterTask(config, ClusterOf(p, rs[i]))] && all[2 * i + 1] == []
      {
        if i < |rs| - 1 {
          assert rs[i] == init[i];
        }
      }
    }
  }

  /** `InfraSteps` never fails: the state check, then for region `i` its
      cluster step at `1 + 2i` and an empty step at `2 + 2i`. */
  lemma InfraStepsShape(config: Config, p: StepPlatform.Platform)
    ensures var r := InfraSteps(config, p);
      && r.Success?
      && |r.value| == 1 + 2 * |p.regions|
      && r.value[0] == StepPlatform.StateCheckStep(p)
      && forall i :: 0 <= i < |p.regions| ==>
           && r.value[1 + 2 * i] == [KubernetesSteps.ClusterTask(config, ClusterOf(p, p.regions[i]))]
           && r.value[2 + 2 * i] == []
  {
    CollectShape(config, p, p.regions);
  }

  /** A platform without regions gets the state check alone. */
  lemma NoRegionsOnlyStateCheck(config: Config, p: StepPlatform.Platform)
    requires p.regions == []
    ensures InfraSteps(config, p) == Success([StepPlatform.StateCheckStep(p)])
  {
    assert [StepPlatform.StateCheckStep(p)] + [] == [StepPlatform.StateCheckStep(p)];
  }

  /** Both platform builders name a region's cluster task alike, so the
      kubeconfig task of `StepPlatform.K8sSteps` reads the state of the
      cluster this builder provisions; the two differ in the source and the
      variables of that task. */
  lemma ClusterNamesAgree(config: Config, p: StepPlatform.Platform, i: nat)
    requires i < |p.regions|
    ensures var r := InfraSteps(config, p);
      && r.Success? && 1 + 2 * i < |r.value| && |r.value[1 + 2 * i]| == 1
      && var mine, other := r.value[1 + 2 * i][0], StepPlatform.InfraSteps(config, p)[i + 1][0];
      && mine.options.name == other.options.name == StepPlatform.InternalName(p, p.regions[i], "k8s")
      && mine.options.path == other.options.path
      && mine.options.source == KubernetesSteps.ClusterSource(ClusterOf(p, p.regions[i]))
      && other.options.source == config.baseSource + "/kubernetes-" + p.regions[i].provider + ".git"
  {
    InfraStepsShape(config, p);
    KubernetesSteps.ClusterOptions(config, ClusterOf(p, p.regions[i]));
    StepPlatform.ClusterOptions(config, p, p.regions[i]);
  }
}

=== FILE: relay.dfy ===
/** The per-stream line relay of `executeTerraform`
    (internal/task/terraform/terraform.go:146-170): a buffered reader hands out
    the stream one `ReadString('\n')` chunk at a time, and every chunk that is
    not white space is written with the task's name in front. A read error
    other than end-of-file writes one error line and ends the relay. */
module Relay {
  import opened Wrappers
  import opened Seqs
  import opened Text

  /** What a subprocess pipe yields: the bytes read before the stream ended,
      then either end-of-file (`failure == None`) or a read error. */
  datatype Stream = Stream(data: string, failure: Option<string>)

  /** The outcome of one `ReadString('\n')` call. */
  datatype ReadStatus = Ok | Eof | ReadError(message: string)

  /** Everything up to and including the first newline is one chunk. */
  predicate Terminated(c: string)
  {
    |c| > 0 && c[|c| - 1] == '\n' && '\n' !in c[..|c| - 1]
  }

  /** The last chunk of a stream holds no newline at all (and may be empty). */
  predicate Unterminated(c: string)
  {
    '\n' !in c
  }

  function IsNewline(c: char): bool
  {
    c == '\n'
  }

  function FirstNewline(s: string): (k: nat)
    ensures k <= |s|
    ensures '\n' !in s[..k]
    ensures k < |s| ==> s[k] == '\n'
  {
    var k := FirstWhere(s, IsNewline);
    assert forall i :: 0 <= i < k ==> s[..k][i] == s[i];
    k
  }

  /** The two properties of `FirstNewline` pin it down. */
  lemma FirstNewlineAt(s: string, k: nat)
    requires k <= |s| && '\n' !in s[..k]
    requires k < |s| ==> s[k] == '\n'
    ensures FirstNewline(s) == k
  {
    assert forall i :: 0 <= i < k ==> s[i] == s[..k][i];
    FirstWhereUnique(s, IsNewline, k);
  }

  /** The chunks successive `ReadString('\n')` calls return: newline-terminated
      chunks, then the remainder at end of stream (empty when the stream ends
      with a newline or is empty). */
  function Chunks(s: string): (cs: seq<string>)
    ensures |cs| > 0
    ensures Flat(cs) == s
    ensures forall i :: 0 <= i < |cs| - 1 ==> Terminated(cs[i])
    ensures Unterminated(cs[|cs| - 1])
    decreases |s|
  {
    var k := FirstNewline(s);
    if k == |s| then
      assert s[..k] == s;
      [s]
    else
      var head := s[..k + 1];
      assert head[..|head| - 1] == s[..k];
      var rest := Chunks(s[k + 1..]);
      assert ([head] + rest)[1..] == rest;
      assert s == head + s[k + 1..];
      [head] + rest
  }

  /** One `ReadString('\n')` on the unread part `rest` of a stream. When no
      newline is left the reader returns what remains together with the
      stream's end: end-of-file or the read error. */
  function ReadString(rest: string, failure: Option<string>): (r: (string, ReadStatus))
    ensures r.1.Ok? ==> 0 < |r.0| <= |rest|
  {
    var k := FirstNewline(rest);
    if k < |rest| then
      (rest[..k + 1], Ok)
    else
      match failure
      case None => (rest, Eof)
      case Some(m) => (rest, ReadError(m))
  }

  /** A successful read returns the next line with its newline; a read that
      meets the end of the stream returns everything left, which then holds no
      newline, and reports end-of-file or the read error. */
  lemma ReadStringShape(rest: string, failure: Option<string>)
    ensures var r := ReadString(rest, failure);
      && (r.1.Ok? ==> Terminated(r.0) && rest == r.0 + rest[|r.0|..])
      && (!r.1.Ok? ==> r.0 == rest && Unterminated(rest))
      && (r.1 == Eof <==> Unterminated(rest) && failure == None)
      && (r.1.ReadError? <==> Unterminated(rest) && failure.Some? && r.1.message == failure.value)
  {
    var k := FirstNewline(rest);
    if k < |rest| {
      assert rest[..k + 1][..k] == rest[..k];
    } else {
      assert rest[..k] == rest;
    }
  }

  function Prefix(name: string): string
  {
    "[" + name + "] "
  }

  /** The line written when a read fails. */
  function ErrorLine(name: string, message: string): string
  {
    Prefix(name) + "error: " + message + "\n"
  }

  /** The chunks whose text reaches the relay: on a read error the partial last
      chunk is discarded. */
  function Delivered(st: Stream): (cs: seq<string>)
    ensures st.failure == None ==> cs == Chunks(st.data)
    ensures st.failure != None ==> cs + [Chunks(st.data)[|Chunks(st.data)| - 1]] == Chunks(st.data)
  {
    var cs := Chunks(st.data);
    if st.failure == None then cs else cs[..|cs| - 1]
  }

  /** The writes for a run of chunks: white-space-only chunks are dropped, the
      others are written behind the name prefix. */
  function Relayed(name: string, cs: seq<string>): (lines: seq<string>)
    ensures |lines| <= |cs|
  {
    if |cs| == 0 then []
    else Relayed(name, cs[..|cs| - 1]) + Written(name, cs[|cs| - 1])
  }

  /** The write for one chunk: nothing when it is white space only
      (`len(strings.TrimSpace(s)) == 0`), else the chunk behind the prefix. */
  function Written(name: string, c: string): seq<string>
  {
    if IsBlank(c) then [] else [Prefix(name) + c]
  }

  /** `line` is a relayed write: the name prefix, then text that is not white
      space only. */
  predicate PrefixedLine(name: string, line: string)
  {
    |Prefix(name)| <= |line| && line[..|Prefix(name)|] == Prefix(name)
    && !IsBlank(line[|Prefix(name)|..])
  }

  /** Every relayed write carries the prefix and some non-white-space text. */
  lemma {:induction false} RelayedLines(name: string, cs: seq<string>)
    ensures forall i :: 0 <= i < |Relayed(name, cs)| ==> PrefixedLine(name, Relayed(name, cs)[i])
    decreases |cs|
  {
    if |cs| > 0 {
      var c := cs[|cs| - 1];
      var line := Prefix(name) + c;
      assert line[..|Prefix(name)|] == Prefix(name) && line[|Prefix(name)|..] == c;
      RelayedLines(name, cs[..|cs| - 1]);
    }
  }

  /** Independent description of the whole relay of one stream. */
  function Emitted(name: string, st: Stream): (lines: seq<string>)
    ensures st.failure == None ==> lines == Relayed(name, Chunks(st.data))
    ensures st.failure.Some? ==> |lines| > 0 && lines[|lines| - 1] == ErrorLine(name, st.failure.value)
  {
    Relayed(name, Delivered(st))
      + (match st.failure case None => [] case Some(m) => [ErrorLine(name, m)])
  }

  /** The relay goroutine's loop: read and relay chunks until the stream ends. */
  method RelayStream(name: string, st: Stream) returns (lines: seq<string>)
    ensures lines == Emitted(name, st)
  {
    lines := [];
    var rest := st.data;
    ghost var consumed: seq<string> := [];
    while true
      invariant Chunks(st.data) == consumed + Chunks(rest)
      invariant lines == Relayed(name, consumed)
      decreases |rest|
    {
      var written, next, done, taken := RelayOnce(name, st, rest, consumed);
      lines := lines + written;
      if done {
        return;
      }
      rest, consumed := next, taken;
    }
  }

  /** One pass of the relay loop: read a chunk; on success or end-of-file write
      it unless it is blank, and stop at end-of-file; on a read error write the
      error line and stop. */
  method RelayOnce(name: string, st: Stream, rest: string, ghost consumed: seq<string>)
    returns (written: seq<string>, next: string, done: bool, ghost taken: seq<string>)
    requires Chunks(st.data) == consumed + Chunks(rest)
    ensures !done ==>
      && |next| < |rest|
      && Chunks(st.data) == taken + Chunks(next)
      && Relayed(name, taken) == Relayed(name, consumed) + written
    ensures done ==> Emitted(name, st) == Relayed(name, consumed) + written
  {
    var read := ReadString(rest, st.failure);
    var s, err := read.0, read.1;
    Advance(st, consumed, rest);
    if err.Ok? || err.Eof? {
      RelayedSnoc(name, consumed, s);
      written := Written(name, s);
      taken := consumed + [s];
      next := rest;
      done := err.Eof?;
      if !done {
        next := rest[|s|..];
      }
    } else {
      written := [ErrorLine(name, err.message)];
      next, done, taken := rest, true, consumed;
    }
  }

  /** One read takes the next chunk off the unread part; when it ends the
      stream, the chunks taken so far are the ones delivered. */
  lemma Advance(st: Stream, consumed: seq<string>, rest: string)
    requires Chunks(st.data) == consumed + Chunks(rest)
    ensures var r := ReadString(rest, st.failure);
      && (r.1.Ok? ==> |r.0| > 0 && Chunks(st.data) == (consumed + [r.0]) + Chunks(rest[|r.0|..]))
      && (r.1.Eof? ==> Delivered(st) == consumed + [r.0])
      && (r.1.ReadError? ==> Delivered(st) == consumed && st.failure == Some(r.1.message))
  {
    var r := ReadString(rest, st.failure);
    ReadStep(rest, st.failure);
    if r.1.Ok? {
      SnocAssoc(consumed, r.0, Chunks(rest[|r.0|..]));
    } else {
      assert Chunks(st.data) == consumed + [r.0];
      assert Chunks(st.data)[..|consumed|] == consumed;
    }
  }

  /** One read takes the next chunk off the unread part. */
  lemma ReadStep(rest: string, failure: Option<string>)
    ensures var (s, err) := ReadString(rest, failure);
      && (err.Ok? ==> |s| > 0 && Chunks(rest) == [s] + Chunks(rest[|s|..]))
      && (!err.Ok? ==> Chunks(rest) == [s])
  {
    var k := FirstNewline(rest);
    if k < |rest| {
      assert |rest[..k + 1]| == k + 1;
    }
  }

  lemma SnocAssoc<X>(a: seq<X>, x: X, b: seq<X>)
    ensures a + ([x] + b) == (a + [x]) + b
  {
  }

  lemma RelayedSnoc(name: string, cs: seq<string>, c: string)
    ensures Relayed(name, cs + [c]) == Relayed(name, cs) + Written(name, c)
  {
    assert (cs + [c])[..|cs|] == cs;
  }

  // ---------------------------------------------------------------------
  // What the relay promises.

  /** The chunking is the only one with its defining shape: every chunk but the
      last ends at its first newline, and the last has none. */
  lemma {:induction false} ChunksUnique(s: string, cs: seq<string>)
    requires |cs| > 0 && Flat(cs) == s
    requires forall i :: 0 <= i < |cs| - 1 ==> Terminated(cs[i])
    requires Unterminated(cs[|cs| - 1])
    ensures cs == Chunks(s)
    decreases |cs|
  {
    if |cs| == 1 {
      assert Flat(cs) == cs[0] + Flat(cs[1..]);
      assert s == cs[0] && s[..|s|] == s;
      FirstNewlineAt(s, |s|);
    } else {
      var c := cs[0];
      assert Flat(cs) == c + Flat(cs[1..]);
      assert Terminated(c);
      assert s[..|c|] == c;
      assert s[..|c| - 1] == c[..|c| - 1];
      FirstNewlineAt(s, |c| - 1);
      assert s[|c|..] == Flat(cs[1..]);
      ChunksUnique(s[|c|..], cs[1..]);
    }
  }

  function Strip(name: string, line: string): string
  {
    if |Prefix(name)| <= |line| && line[..|Prefix(name)|] == Prefix(name)
    then line[|Prefix(name)|..] else line
  }

  /** The written text with the name prefixes taken off again. */
  function Stripped(name: string, lines: seq<string>): (r: seq<string>)
    ensures |r| == |lines|
  {
    seq(|lines|, i requires 0 <= i < |lines| => Strip(name, lines[i]))
  }

  /** A chunk is dropped exactly when it is white space only: when no chunk is
      white space but non-empty, stripping the prefixes gives the text back. */
  lemma {:induction false} RelayKeepsText(name: string, cs: seq<string>)
    requires forall i :: 0 <= i < |cs| ==> cs[i] == [] || !IsBlank(cs[i])
    ensures Flat(Stripped(name, Relayed(name, cs))) == Flat(cs)
    decreases |cs|
  {
    if |cs| > 0 {
      var init := cs[..|cs| - 1];
      var c := cs[|cs| - 1];
      assert cs == init + [c];
      RelayKeepsText(name, init);
      var front := Relayed(name, init);
      var tail := Written(name, c);
      assert Relayed(name, cs) == front + tail;
      StrippedAppend(name, front, tail);
      FlatAppend(Stripped(name, front), Stripped(name, tail));
      FlatAppend(init, [c]);
      StripRelayedChunk(name, c);
    }
  }

  lemma StrippedAppend(name: string, a: seq<string>, b: seq<string>)
    ensures Stripped(name, a + b) == Stripped(name, a) + Stripped(name, b)
  {
  }

  /** What one chunk contributes to the relay, stripped, is the chunk itself. */
  lemma StripRelayedChunk(name: string, c: string)
    requires c == [] || !IsBlank(c)
    ensures Flat(Stripped(name, Written(name, c))) == Flat([c])
  {
    assert Flat([c]) == c + Flat([c][1..]);
    if !IsBlank(c) {
      assert (Prefix(name) + c)[..|Prefix(name)|] == Prefix(name);
      assert (Prefix(name) + c)[|Prefix(name)|..] == c;
      assert Stripped(name, [Prefix(name) + c]) == [c];
    }
  }

  /** The relay of a cleanly ending stream without white-space-only lines
      writes the stream's text back, line by line, behind the prefix. */
  lemma StreamRoundTrip(name: string, data: string)
    requires forall i :: 0 <= i < |Chunks(data)| ==> Chunks(data)[i] == [] || !IsBlank(Chunks(data)[i])
    ensures Flat(Stripped(name, Emitted(name, Stream(data, None)))) == data
  {
    RelayKeepsText(name, Chunks(data));
    assert Emitted(name, Stream(data, None)) == Relayed(name, Chunks(data));
  }

  /** A stream of nothing but white space writes nothing. */
  lemma {:induction false} BlankChunksDropped(name: string, cs: seq<string>)
    requires forall i :: 0 <= i < |cs| ==> IsBlank(cs[i])
    ensures Relayed(name, cs) == []
    decreases |cs|
  {
    if |cs| > 0 {
      BlankChunksDropped(name, cs[..|cs| - 1]);
    }
  }

  /** Relaying two runs of chunks writes the lines of the first run, then
      those of the second. */
  lemma {:induction false} RelayedAppend(name: string, a: seq<string>, b: seq<string>)
    ensures Relayed(name, a + b) == Relayed(name, a) + Relayed(name, b)
    decreases |b|
  {
    if |b| == 0 {
      assert a + b == a;
    } else {
      var init, last := b[..|b| - 1], b[|b| - 1];
      assert a + b == (a + init) + [last];
      assert b == init + [last];
      RelayedAppend(name, a, init);
      RelayedSnoc(name, a + init, last);
      RelayedSnoc(name, init, last);
    }
  }

  /** Each chunk, wherever it stands, writes its own prefixed line in its
      place, or nothing at all when it is white space only. */
  lemma ChunkRelayedInPlace(name: string, a: seq<string>, c: string, b: seq<string>)
    ensures Relayed(name, a + [c] + b)
         == Relayed(name, a) + (if IsBlank(c) then [] else [Prefix(name) + c]) + Relayed(name, b)
  {
    RelayedAppend(name, a + [c], b);
    RelayedSnoc(name, a, c);
  }

  /** A read error writes exactly one error line, as the last write, after the
      relay of the complete lines read before it; the partial line is lost. */
  lemma ReadErrorEndsRelay(name: string, data: string, message: string)
    ensures var lines := Emitted(name, Stream(data, Some(message)));
      var cs := Chunks(data);
      && |lines| > 0
      && lines[|lines| - 1] == ErrorLine(name, message)
      && lines[..|lines| - 1] == Relayed(name, cs[..|cs| - 1])
  {
    var lines := Emitted(name, Stream(data, Some(message)));
    assert lines[..|lines| - 1] == Relayed(name, Delivered(Stream(data, Some(message))));
  }
}

=== FILE: seqs.dfy ===
/** Sequence helpers shared by the sequencer, the executor's stage pipeline and
    the line relay. */
module Seqs {

  /** Index of the first element satisfying `p`, or `|xs|` when none does. */
  function FirstWhere<T>(xs: seq<T>, p: T -> bool): (k: nat)
    ensures k <= |xs|
    ensures forall i :: 0 <= i < k ==> !p(xs[i])
    ensures k < |xs| ==> p(xs[k])
  {
    if |xs| == 0 then 0
    else if p(xs[0]) then 0
    else 1 + FirstWhere(xs[1..], p)
  }

  /** `FirstWhere` is the only index with its two defining properties. */
  lemma {:induction false} FirstWhereUnique<T>(xs: seq<T>, p: T -> bool, k: nat)
    requires k <= |xs|
    requires forall i :: 0 <= i < k ==> !p(xs[i])
    requires k < |xs| ==> p(xs[k])
    ensures FirstWhere(xs, p) == k
  {
    if k > 0 {
      assert !p(xs[0]);
      forall i | 0 <= i < k - 1
        ensures !p(xs[1..][i])
      {
        assert xs[1..][i] == xs[i + 1];
      }
      FirstWhereUnique(xs[1..], p, k - 1);
    }
  }

  /** Concatenation of a sequence of sequences, in order. */
  function Flat<T>(xss: seq<seq<T>>): seq<T>
  {
    if |xss| == 0 then [] else xss[0] + Flat(xss[1..])
  }

  lemma {:induction false} FlatAppend<T>(a: seq<seq<T>>, b: seq<seq<T>>)
    ensures Flat(a + b) == Flat(a) + Flat(b)
  {
    if |a| == 0 {
      assert a + b == b;
    } else {
      assert (a + b)[1..] == a[1..] + b;
      FlatAppend(a[1..], b);
    }
  }

  lemma FlatSnoc<T>(xss: seq<seq<T>>, x: seq<T>)
    ensures Flat(xss + [x]) == Flat(xss) + x
  {
    FlatAppend(xss, [x]);
    assert [x][1..] == [];
    assert Flat([x]) == x + Flat([x][1..]);
  }

  function Reverse<T>(xs: seq<T>): (r: seq<T>)
    ensures |r| == |xs|
    ensures forall i :: 0 <= i < |xs| ==> r[i] == xs[|xs| - 1 - i]
  {
    if |xs| == 0 then [] else Reverse(xs[1..]) + [xs[0]]
  }

  /** No element occurs twice. */
  predicate Distinct<T(==)>(xs: seq<T>)
  {
    forall i, j :: 0 <= i < j < |xs| ==> xs[i] != xs[j]
  }
}

=== FILE: settings.dfy ===
/** The named settings the core reads from its global configuration registry,
    passed explicitly instead. */
module Settings {

  /** The registry's defaults, when no flag or file overrides them, are
      `aws`, `us-west-2`, `wha-infra-terraform-state`,
      `wha-infra-terraform-lock` and `https://github.com/w-h-a`; `do-token`
      and `token` have none and read as empty. */
  datatype Config = Config(
    stateStore: string,    // "state-store": which remote-state backend kind
    awsRegion: string,     // "aws-region"
    s3Bucket: string,      // "aws-s3-bucket"
    dynamoTable: string,   // "aws-dynamodb-table": the state lock table
    baseSource: string,    // "base-source": prefix of module repository locators
    doToken: string,       // "do-token"
    token: string          // "token"
  )

}

=== FILE: stages.dfy ===
/** Go's `if err := stage(); err != nil { return err }` chains, as used by the
    terraform executor: stages run in order, each leaves a record of the
    outside-world actions it took, and the first failing stage's error is the
    result; later stages do not run. */
module Stages {
  import opened Wrappers
  import opened Seqs
  import opened Relay

  /** A terraform subprocess: its working directory, arguments and
      environment. */
  datatype Command = Command(dir: string, args: seq<string>, env: seq<string>)

  /** What the executor does to the outside world, in order. */
  datatype Action =
    | MakeDir(path: string)                      // os.MkdirAll
    | Print(text: string)                        // a progress message on standard output
    | Clone(path: string, url: string)           // git clone
    | Open(file: string)                         // open (create) a file for writing
    | Write(file: string, text: string)          // one write to an opened file
    | Terraform(command: Command, started: bool, stdout: Stream, stderr: Stream)
      // a terraform run whose two output streams are relayed to the console as
      // their readers saw them, `Relay.Emitted` lines each; `started` is false
      // when the process could not be started

  /** One stage: the actions it took and its error, if any. */
  datatype StageRun = StageRun(actions: seq<Action>, outcome: Outcome<string>)

  /** A whole run of stages. */
  datatype Report = Report(actions: seq<Action>, result: Outcome<string>)

  function StageFailed(s: StageRun): bool
  {
    s.outcome.Fail?
  }

  function ActionsOf(ss: seq<StageRun>): (r: seq<seq<Action>>)
    ensures |r| == |ss|
    ensures forall i :: 0 <= i < |ss| ==> r[i] == ss[i].actions
  {
    seq(|ss|, i requires 0 <= i < |ss| => ss[i].actions)
  }

  /** How many stages run: up to and including the first failing one. */
  function Reached(ss: seq<StageRun>): (n: nat)
    ensures n <= |ss|
  {
    var k := FirstWhere(ss, StageFailed);
    if k < |ss| then k + 1 else |ss|
  }

  /** Run the stages in order and stop at the first error. */
  function RunStages(ss: seq<StageRun>): (r: Report)
    ensures r.result.Fail? ==> exists i :: 0 <= i < |ss| && ss[i].outcome == r.result
  {
    if |ss| == 0 then Report([], Pass)
    else if ss[0].outcome.Fail? then Report(ss[0].actions, ss[0].outcome)
    else
      var r := RunStages(ss[1..]);
      Report(ss[0].actions + r.actions, r.result)
  }

  /** The run's result is the first failing stage's error, or success when
      none fails, and its actions are those of the stages up to and including
      that one. */
  lemma {:induction false} RunStagesFirstFailure(ss: seq<StageRun>)
    ensures var k := FirstWhere(ss, StageFailed);
      RunStages(ss).result == (if k < |ss| then ss[k].outcome else Pass)
    ensures RunStages(ss).actions == Flat(ActionsOf(ss[..Reached(ss)]))
    decreases |ss|
  {
    if |ss| == 0 {
    } else if ss[0].outcome.Fail? {
      assert ActionsOf(ss[..1]) == [ss[0].actions];
      assert Flat([ss[0].actions]) == ss[0].actions + Flat([ss[0].actions][1..]);
    } else {
      RunStagesFirstFailure(ss[1..]);
      assert ActionsOf(ss[..Reached(ss)])[1..] == ActionsOf(ss[1..][..Reached(ss[1..])]);
    }
  }

  /** The result is an error exactly when some stage fails; without one every
      stage ran. */
  lemma RunStagesFails(ss: seq<StageRun>)
    ensures RunStages(ss).result.Fail? <==> exists i :: 0 <= i < |ss| && ss[i].outcome.Fail?
    ensures (forall i :: 0 <= i < |ss| ==> ss[i].outcome.Pass?) ==>
      RunStages(ss).actions == Flat(ActionsOf(ss))
  {
    RunStagesFirstFailure(ss);
    var k := FirstWhere(ss, StageFailed);
    if k == |ss| {
      assert ss[..|ss|] == ss;
    }
  }

  /** Stages after a failing one leave no trace: changing them changes nothing. */
  lemma LaterStagesIgnored(front: seq<StageRun>, failing: StageRun, back1: seq<StageRun>, back2: seq<StageRun>)
    requires failing.outcome.Fail?
    ensures RunStages(front + [failing] + back1) == RunStages(front + [failing] + back2)
  {
    var a := front + [failing] + back1;
    var b := front + [failing] + back2;
    RunStagesFirstFailure(a);
    RunStagesFirstFailure(b);
    var k := FirstWhere(a, StageFailed);
    assert a[..|front| + 1] == b[..|front| + 1];
    assert StageFailed(a[|front|]);
    assert k <= |front|;
    FirstWhereUnique(b, StageFailed, k);
    assert a[..k + 1] == b[..k + 1];
  }

  /** A run that passes its first stage is that stage's actions followed by
      the run of the rest. */
  lemma RunStagesCons(s: StageRun, rest: seq<StageRun>)
    requires s.outcome.Pass?
    ensures RunStages([s] + rest) == Report(s.actions + RunStages(rest).actions, RunStages(rest).result)
  {
    assert ([s] + rest)[1..] == rest;
  }

  /** A run whose first stage fails is that stage alone. */
  lemma FailFirst(s: StageRun, rest: seq<StageRun>)
    requires s.outcome.Fail?
    ensures RunStages([s] + rest) == Report(s.actions, s.outcome)
  {
    assert ActionsOf(([s] + rest)[..1]) == [s.actions];
    assert Flat([s.actions]) == s.actions + Flat([s.actions][1..]);
  }

  /** After stages that all pass, the next stage's actions and outcome are
      appended to the run. */
  lemma {:induction false} PassThenLast(front: seq<StageRun>, x: StageRun)
    requires forall i :: 0 <= i < |front| ==> front[i].outcome.Pass?
    ensures RunStages(front + [x]) == Report(RunStages(front).actions + x.actions, x.outcome)
    decreases |front|
  {
    if |front| == 0 {
      assert front + [x] == [x];
    } else {
      PassThenLast(front[1..], x);
      assert front + [x] == [front[0]] + (front[1..] + [x]);
      RunStagesCons(front[0], front[1..] + [x]);
      assert front == [front[0]] + front[1..];
      RunStagesCons(front[0], front[1..]);
    }
  }

  /** When every stage passes, the run ends with the last stages' actions. */
  lemma AllPassEndsWith(front: seq<StageRun>, x: StageRun, y: StageRun)
    requires forall i :: 0 <= i < |front| ==> front[i].outcome.Pass?
    requires x.outcome.Pass? && y.outcome.Pass?
    ensures RunStages(front + [x, y]) == Report(RunStages(front).actions + x.actions + y.actions, Pass)
  {
    PassThenLast(front, x);
    var fx := front + [x];
    assert forall i :: 0 <= i < |fx| ==> fx[i].outcome.Pass?;
    PassThenLast(fx, y);
    assert fx + [y] == front + [x, y];
  }

  /** A single stage's run is that stage. */
  lemma RunSingle(s: StageRun)
    ensures RunStages([s]) == Report(s.actions, s.outcome)
  {
    assert [s][1..] == [];
    assert s.actions + [] == s.actions;
  }

  /** A run starts with its first stage's actions, whatever that stage's
      outcome. */
  lemma RunStartsWithFirst(s: StageRun, rest: seq<StageRun>)
    ensures var a := RunStages([s] + rest).actions;
      |a| >= |s.actions| && a[..|s.actions|] == s.actions
  {
    assert ([s] + rest)[1..] == rest;
  }

  /** When every stage passes and the last two each record one action, the
      run ends with those two actions. */
  lemma EndsWithLastTwo(ss: seq<StageRun>)
    requires |ss| >= 2
    requires forall i :: 0 <= i < |ss| ==> ss[i].outcome.Pass?
    requires |ss[|ss| - 2].actions| == 1 && |ss[|ss| - 1].actions| == 1
    ensures var r := RunStages(ss);
      && r.result == Pass
      && |r.actions| >= 2
      && r.actions[|r.actions| - 2] == ss[|ss| - 2].actions[0]
      && r.actions[|r.actions| - 1] == ss[|ss| - 1].actions[0]
  {
    var n := |ss|;
    var front, x, y := ss[..n - 2], ss[n - 2], ss[n - 1];
    assert ss == front + [x, y];
    AllPassEndsWith(front, x, y);
  }

  /** Go's `if err := stage(); err != nil { return err }` chain: run each stage
      in turn and return at the first error. */
  method RunInOrder(ss: seq<StageRun>) returns (report: Report)
    ensures report == RunStages(ss)
  {
    var actions: seq<Action> := [];
    var i := 0;
    assert ss[0..] == ss;
    while i < |ss|
      invariant 0 <= i <= |ss|
      invariant RunStages(ss) == Report(actions + RunStages(ss[i..]).actions, RunStages(ss[i..]).result)
    {
      assert ss[i..][1..] == ss[i + 1..];
      if ss[i].outcome.Fail? {
        return Report(actions + ss[i].actions, ss[i].outcome);
      }
      SnocConcat(actions, ss[i].actions, RunStages(ss[i + 1..]).actions);
      actions := actions + ss[i].actions;
      i := i + 1;
    }
    assert actions + [] == actions;
    report := Report(actions, Pass);
  }

  lemma SnocConcat<T>(a: seq<T>, b: seq<T>, c: seq<T>)
    ensures a + (b + c) == (a + b) + c
  {
  }

  /** Two passing stages, the second silent, followed by a third: the run
      starts with the first's actions and then the third's. */
  lemma ThreeStagePrefix(a: StageRun, b: StageRun, c: StageRun, rest: seq<StageRun>)
    requires a.outcome.Pass? && b.outcome.Pass? && b.actions == []
    ensures var r := RunStages([a, b, c] + rest).actions;
      |r| >= |a.actions| + |c.actions| && r[..|a.actions| + |c.actions|] == a.actions + c.actions
  {
    assert [a, b, c] + rest == [a] + ([b] + ([c] + rest));
    RunStagesCons(a, [b] + ([c] + rest));
    RunStagesCons(b, [c] + rest);
    RunStartsWithFirst(c, rest);
  }

  /** A passing stage followed by a failing one: the run is the first's
      actions, then the second's, with the second's error. */
  lemma SecondStageFails(a: StageRun, b: StageRun, rest: seq<StageRun>)
    requires a.outcome.Pass? && b.outcome.Fail?
    ensures RunStages([a, b] + rest) == Report(a.actions + b.actions, b.outcome)
  {
    assert [a, b] + rest == [a] + ([b] + rest);
    RunStagesCons(a, [b] + rest);
    FailFirst(b, rest);
  }
}

=== FILE: state.dfy ===
/** The state checker task (internal/task/state/state.go): it proves the
    remote-state backend usable by storing an object named after the task,
    reading it back, comparing, and deleting it. The S3 bucket is a map from
    (bucket, key) to body; each call of the round trip can fail on its own. */
module StateProbe {
  import opened Wrappers
  import opened Seqs
  import opened Settings

  /** The calls the round trip makes to the outside world, in order. */
  datatype Call =
    | NewSession(region: string)                       // session.NewSession
    | PutObject(bucket: string, key: string, body: string)
    | GetObject(bucket: string, key: string)
    | ReadBody                                         // io.ReadAll of the object body
    | DeleteObject(bucket: string, key: string)

  /** The object store and how each call behaves: `session` says whether a
      session for a region can be created; `put`, `get`, `read` and `delete`
      whether that call fails; `readBack`, when set, is a body the store
      serves in place of the stored one (a misbehaving store). */
  datatype Store = Store(
    objects: map<(string, string), string>,
    session: string -> Outcome<string>,
    put: Outcome<string>,
    get: Outcome<string>,
    read: Outcome<string>,
    readBack: Option<string>,
    delete: Outcome<string>)

  /** Why a probe failed; `Message` gives the text Go's error carries. */
  datatype ProbeError =
    | SessionError(cause: string)
    | PutError(cause: string)
    | GetError(cause: string)
    | ReadError(cause: string)
    | MismatchError(want: string, got: string)
    | DeleteError(cause: string)
    | UnsupportedBackend(store: string)

  function Message(e: ProbeError): string
  {
    match e
    case SessionError(c) => "failed to generate an aws session: " + c
    case PutError(c) => "failed to put an object into the remote state backend: " + c
    case GetError(c) => "failed to read back an object from the remote state backend: " + c
    case ReadError(c) => "failed to read the body of an object from the remote state backend: " + c
    case MismatchError(w, g) => "read back an incorrect value from the remote state backend: want " + w + ", got " + g
    case DeleteError(c) => "failed to delete object from the remote state backend: " + c
    case UnsupportedBackend(s) => "remote state backend in " + s + " is not supported"
  }

  /** What one probe did: the calls in order, the objects afterwards, and the
      error returned. */
  datatype Probe = Probe(calls: seq<Call>, objects: map<(string, string), string>, result: Outcome<ProbeError>)

  /** The body the store serves for the probe object after it was put. */
  function Served(name: string, store: Store): string
  {
    store.readBack.GetOr(name)
  }

  /** `validateAWS`: session, put the task name under the task name, get it,
      read its body, compare, delete. The first failure is returned and the
      remaining calls are not made. */
  function ValidateAws(config: Config, name: string, store: Store): (p: Probe)
    ensures p.result.Pass? ==> (config.s3Bucket, name) !in p.objects
    ensures forall k :: k in store.objects && k != (config.s3Bucket, name) ==>
      k in p.objects && p.objects[k] == store.objects[k]
    ensures forall k :: k in p.objects ==> k in store.objects || k == (config.s3Bucket, name)
  {
    var region, bucket := config.awsRegion, config.s3Bucket;
    var s := store.session(region);
    if s.Fail? then Probe([NewSession(region)], store.objects, Fail(SessionError(s.error)))
    else if store.put.Fail? then
      Probe([NewSession(region), PutObject(bucket, name, name)], store.objects, Fail(PutError(store.put.error)))
    else
      var stored := store.objects[(bucket, name) := name];
      var upToGet := [NewSession(region), PutObject(bucket, name, name), GetObject(bucket, name)];
      if store.get.Fail? then Probe(upToGet, stored, Fail(GetError(store.get.error)))
      else if store.read.Fail? then Probe(upToGet + [ReadBody], stored, Fail(ReadError(store.read.error)))
      else if Served(name, store) != name then
        Probe(upToGet + [ReadBody], stored, Fail(MismatchError(name, Served(name, store))))
      else if store.delete.Fail? then
        Probe(upToGet + [ReadBody, DeleteObject(bucket, name)], stored, Fail(DeleteError(store.delete.error)))
      else
        Probe(upToGet + [ReadBody, DeleteObject(bucket, name)], stored - {(bucket, name)}, Pass)
  }

  /** `validateConfig`: only the "aws" backend is probed. */
  function ValidateConfig(config: Config, name: string, store: Store): (p: Probe)
    ensures config.stateStore != "aws" ==> p == Probe([], store.objects, Fail(UnsupportedBackend(config.stateStore)))
  {
    if config.stateStore == "aws" then ValidateAws(config, name, store)
    else Probe([], store.objects, Fail(UnsupportedBackend(config.stateStore)))
  }

  /** `Validate`: the probe, and the verdict line printed on standard output. */
  function Validate(config: Config, name: string, store: Store): (r: (string, Probe))
    ensures r.1 == ValidateConfig(config, name, store)
    ensures r.0 == "remote state backend in " + config.stateStore
                   + (if r.1.result.Pass? then " is valid\n" else " is invalid\n")
    ensures r.0 == Verdict(config.stateStore, true) <==>
      config.stateStore == "aws" && forall i :: 0 <= i < 6 ==> StageOutcomes(config, name, store)[i].Pass?
  {
    var p := ValidateConfig(config, name, store);
    ProbeFailsIffStageFails(config, name, store);
    VerdictsDiffer(config.stateStore);
    if p.result.Fail? then ("remote state backend in " + config.stateStore + " is invalid\n", p)
    else ("remote state backend in " + config.stateStore + " is valid\n", p)
  }

  /** The line `Validate` prints for a backend found valid or not. */
  function Verdict(store: string, valid: bool): string
  {
    "remote state backend in " + store + (if valid then " is valid\n" else " is invalid\n")
  }

  /** The two verdicts for one backend are different lines. */
  lemma VerdictsDiffer(store: string)
    ensures Verdict(store, true) != Verdict(store, false)
  {
    var pre := "remote state backend in " + store;
    assert Verdict(store, true)[|pre| + 4] == 'v';
    assert Verdict(store, false)[|pre| + 4] == 'i';
  }

  /** `Plan`, `Apply`, `Destroy` and `Finalize` return nil and touch nothing. */
  function NoOp(): Outcome<ProbeError>
  {
    Pass
  }

  // ---------------------------------------------------------------------
  // The round trip as a pipeline of stages.

  function Wrap(o: Outcome<string>, wrap: string -> ProbeError): (r: Outcome<ProbeError>)
    ensures r.Pass? <==> o.Pass?
  {
    if o.Fail? then Fail(wrap(o.error)) else Pass
  }

  function Compared(name: string, store: Store): Outcome<ProbeError>
  {
    if Served(name, store) != name then Fail(MismatchError(name, Served(name, store))) else Pass
  }

  /** Each stage's outcome given that the stages before it passed: session,
      put, get, read, compare, delete. */
  function StageOutcomes(config: Config, name: string, store: Store): (os: seq<Outcome<ProbeError>>)
    ensures |os| == 6
  {
    [Wrap(store.session(config.awsRegion), c => SessionError(c)), Wrap(store.put, c => PutError(c)), Wrap(store.get, c => GetError(c)),
     Wrap(store.read, c => ReadError(c)), Compared(name, store), Wrap(store.delete, c => DeleteError(c))]
  }

  function Failed(o: Outcome<ProbeError>): bool
  {
    o.Fail?
  }

  /** Every call the round trip can make, in order. */
  function AllCalls(config: Config, name: string): seq<Call>
  {
    [NewSession(config.awsRegion), PutObject(config.s3Bucket, name, name), GetObject(config.s3Bucket, name),
     ReadBody, DeleteObject(config.s3Bucket, name)]
  }

  /** How many calls the first `reached` stages make: the compare stage makes
      none. */
  function CallsOf(reached: nat): nat
  {
    if reached <= 4 then reached else reached - 1
  }

  // ---------------------------------------------------------------------
  // What the state checker promises.

  /** The probe's error is the first failing stage's, and its calls are those
      of the stages up to and including that one, in order. */
  lemma ProbeFollowsStages(config: Config, name: string, store: Store)
    ensures var os := StageOutcomes(config, name, store);
      var k := FirstWhere(os, Failed);
      var p := ValidateAws(config, name, store);
      && p.result == (if k < 6 then os[k] else Pass)
      && p.calls == AllCalls(config, name)[..CallsOf(if k < 6 then k + 1 else 6)]
  {
    var os := StageOutcomes(config, name, store);
    var k := FirstFailingStage(config, name, store);
    FirstWhereUnique(os, Failed, k);
    ProbeAtStage(config, name, store, k);
  }

  /** The index of the first failing stage, or 6 when none fails. */
  function FirstFailingStage(config: Config, name: string, store: Store): (k: nat)
  {
    var os := StageOutcomes(config, name, store);
    if os[0].Fail? then 0 else if os[1].Fail? then 1 else if os[2].Fail? then 2
    else if os[3].Fail? then 3 else if os[4].Fail? then 4 else if os[5].Fail? then 5 else 6
  }

  lemma ProbeAtStage(config: Config, name: string, store: Store, k: nat)
    requires k == FirstFailingStage(config, name, store)
    ensures var os := StageOutcomes(config, name, store);
      && k <= 6
      && (forall i :: 0 <= i < k ==> !Failed(os[i]))
      && (k < 6 ==> Failed(os[k]))
      && ValidateAws(config, name, store).result == (if k < 6 then os[k] else Pass)
      && ValidateAws(config, name, store).calls == AllCalls(config, name)[..CallsOf(if k < 6 then k + 1 else 6)]
  {
    var calls := AllCalls(config, name);
    if k == 0 {
      assert calls[..1] == [NewSession(config.awsRegion)];
    } else if k == 1 {
      assert calls[..2] == calls[..1] + [calls[1]];
    } else if k <= 3 {
      assert calls[..k + 1] == calls[..2] + calls[2..k + 1];
    } else {
      assert calls[..4] == calls[..2] + calls[2..4];
    }
  }

  /** Against a store that serves back what was put and fails no call, the
      probe succeeds, makes every call, and leaves the store as it found it
      except that the probe key is gone. */
  lemma FaithfulStorePasses(config: Config, name: string, store: Store)
    requires store.session(config.awsRegion).Pass?
    requires store.put.Pass? && store.get.Pass? && store.read.Pass? && store.delete.Pass?
    requires store.readBack == None || store.readBack == Some(name)
    ensures var p := ValidateAws(config, name, store);
      && p.result == Pass
      && p.calls == AllCalls(config, name)
      && p.objects == store.objects - {(config.s3Bucket, name)}
  {
    var bucket := config.s3Bucket;
    var stored := store.objects[(bucket, name) := name];
    assert stored - {(bucket, name)} == store.objects - {(bucket, name)};
  }

  /** A read-back that differs from the task name is reported with both
      values, and the object is not deleted: it stays, holding the name. */
  lemma MismatchKeepsObject(config: Config, name: string, store: Store, got: string)
    requires store.session(config.awsRegion).Pass?
    requires store.put.Pass? && store.get.Pass? && store.read.Pass?
    requires store.readBack == Some(got) && got != name
    ensures var p := ValidateAws(config, name, store);
      && p.result == Fail(MismatchError(name, got))
      && DeleteObject(config.s3Bucket, name) !in p.calls
      && (config.s3Bucket, name) in p.objects && p.objects[(config.s3Bucket, name)] == name
  {
  }

  /** The probe fails exactly when one of its stages does. */
  lemma ProbeFailsIffStageFails(config: Config, name: string, store: Store)
    ensures ValidateAws(config, name, store).result.Fail? <==>
      exists i :: 0 <= i < 6 && StageOutcomes(config, name, store)[i].Fail?
  {
    ProbeFollowsStages(config, name, store);
    var os := StageOutcomes(config, name, store);
    var k := FirstWhere(os, Failed);
    if k == 6 {
      assert forall i :: 0 <= i < 6 ==> !Failed(os[i]);
    }
  }

  /** A backend other than "aws" is refused, naming it, before any call, and
      `Validate` returns that error unchanged after printing its verdict. */
  lemma UnsupportedBackendRefused(config: Config, name: string, store: Store)
    requires config.stateStore != "aws"
    ensures var (line, p) := Validate(config, name, store);
      && p.calls == []
      && p.objects == store.objects
      && p.result == Fail(UnsupportedBackend(config.stateStore))
      && line == "remote state backend in " + config.stateStore + " is invalid\n"
  {
  }
}

=== FILE: state_files.dfy ===
/** The executor's state files (internal/task/terraform/terraform.go:20-42 and
    199-290): for the "aws" state store, a backend block keyed by the task
    name, and one remote-state data source per requested remote state; any
    other store is refused. Template execution is plain substitution, so each
    file's text is written out as a concatenation. */
module StateFiles {
  import opened Wrappers
  import opened Seqs
  import opened MapRange
  import opened Settings
  import opened Stages

  const BackendFile := "backend-config.tf"
  const RemoteStatesFile := "remote-state-data-sources.tf"

  /** The values filled into either template. */
  datatype S3Settings = S3Settings(bucket: string, lockTable: string, key: string, region: string)

  /** One `data "terraform_remote_state"` block. */
  datatype RemoteState = RemoteState(name: string, settings: S3Settings)

  /** `filepath.Join(dir, file)` for a plain file name (path cleaning is not
      modelled). */
  function Join(dir: string, file: string): string
  {
    if dir == "" then file
    else if dir[|dir| - 1] == '/' then dir + file
    else dir + "/" + file
  }

  /** The backend keeps this task's state under its own name. */
  function Backend(config: Config, taskName: string): (s: S3Settings)
    ensures s.key == taskName
    ensures s.bucket == config.s3Bucket && s.lockTable == config.dynamoTable && s.region == config.awsRegion
  {
    S3Settings(config.s3Bucket, config.dynamoTable, taskName, config.awsRegion)
  }

  /** One data source per key in `keys` that `states` maps, in that order:
      named by the key, reading the state stored under the mapped value. */
  function RemoteStates(config: Config, states: map<string, string>, keys: seq<string>): (rs: seq<RemoteState>)
    ensures |rs| <= |keys|
  {
    if |keys| == 0 then []
    else
      var k := keys[|keys| - 1];
      RemoteStates(config, states, keys[..|keys| - 1])
        + (if k in states
           then [RemoteState(k, S3Settings(config.s3Bucket, config.dynamoTable, states[k], config.awsRegion))]
           else [])
  }

  /** The four `key = "value"` lines both templates share. */
  function SettingsLines(s: S3Settings): string
  {
    "\t\t  bucket         = \"" + s.bucket + "\"\n"
    + "\t\t  dynamodb_table = \"" + s.lockTable + "\"\n"
    + "\t\t  key            = \"" + s.key + "\"\n"
    + "\t\t  region         = \"" + s.region + "\"\n"
  }

  /** The backend template with its values filled in. */
  function RenderBackend(s: S3Settings): string
  {
    "terraform {\n\t\tbackend \"s3\" {\n" + SettingsLines(s) + "\t\t}\n\t  }\n\t  "
  }

  /** The remote-state template with its values filled in. */
  function RenderRemoteState(r: RemoteState): string
  {
    "data \"terraform_remote_state\" \"" + r.name + "\" {\n\t\tbackend = \"s3\"\n\n\t\tconfig = {\n"
      + SettingsLines(r.settings) + "\t\t}\n\t  }\n\t  "
  }

  function UnsupportedStore(store: string): string
  {
    store + " is not a supported remote state backend"
  }

  function OpenStage(file: string, open: string -> Outcome<string>): StageRun
  {
    StageRun([Open(file)], open(file))
  }

  function WriteStage(file: string, text: string, write: (string, string) -> Outcome<string>): StageRun
  {
    StageRun([Write(file, text)], write(file, text))
  }

  /** One write per remote state, each its own template execution. */
  function RemoteWrites(file: string, rs: seq<RemoteState>, write: (string, string) -> Outcome<string>): (ss: seq<StageRun>)
    ensures |ss| == |rs|
    ensures forall i :: 0 <= i < |rs| ==> ss[i] == WriteStage(file, RenderRemoteState(rs[i]), write)
  {
    seq(|rs|, i requires 0 <= i < |rs| => WriteStage(file, RenderRemoteState(rs[i]), write))
  }

  /** The stages of the "aws" branch: open and fill the backend file, open the
      remote-state file and write each block, then report success. */
  function AwsStages(config: Config, name: string, path: string, states: map<string, string>, order: Order,
                     open: string -> Outcome<string>, write: (string, string) -> Outcome<string>): seq<StageRun>
  {
    var bf := Join(path, BackendFile);
    var rf := Join(path, RemoteStatesFile);
    [OpenStage(bf, open), WriteStage(bf, RenderBackend(Backend(config, name)), write), OpenStage(rf, open)]
      + RemoteWrites(rf, RemoteStates(config, states, order(states)), write)
      + [StageRun([Print("successfully wrote state files to " + path + "\n")], Pass)]
  }

  /** `writeStateFiles`: dispatch on the configured state store. */
  function WriteStateFiles(config: Config, name: string, path: string, states: map<string, string>, order: Order,
                           open: string -> Outcome<string>, write: (string, string) -> Outcome<string>): (r: StageRun)
    ensures config.stateStore != "aws" ==> r == StageRun([], Fail(UnsupportedStore(config.stateStore)))
    ensures config.stateStore == "aws" ==>
      (r.outcome.Fail? <==>
        exists i :: 0 <= i < |AwsStages(config, name, path, states, order, open, write)|
          && AwsStages(config, name, path, states, order, open, write)[i].outcome.Fail?)
  {
    if config.stateStore == "aws" then
      var report := RunStages(AwsStages(config, name, path, states, order, open, write));
      RunStagesFails(AwsStages(config, name, path, states, order, open, write));
      StageRun(report.actions, report.result)
    else StageRun([], Fail(UnsupportedStore(config.stateStore)))
  }

  // ---------------------------------------------------------------------
  // What the state files promise.

  /** With a lawful map order there is one data source per requested remote
      state, named by its key and reading the state under its value; all
      share the configured bucket, table and region. */
  lemma {:induction false} RemoteStatesOfEnumeration(config: Config, states: map<string, string>, keys: seq<string>)
    requires forall i :: 0 <= i < |keys| ==> keys[i] in states
    ensures var rs := RemoteStates(config, states, keys);
      && |rs| == |keys|
      && forall i :: 0 <= i < |keys| ==>
        rs[i] == RemoteState(keys[i], S3Settings(config.s3Bucket, config.dynamoTable, states[keys[i]], config.awsRegion))
    decreases |keys|
  {
    if |keys| > 0 {
      RemoteStatesOfEnumeration(config, states, keys[..|keys| - 1]);
    }
  }

  lemma OneBlockPerRemoteState(config: Config, states: map<string, string>, order: Order)
    requires Lawful(order)
    ensures var rs := RemoteStates(config, states, order(states));
      && |rs| == |states|
      && (forall i :: 0 <= i < |rs| ==> rs[i].name in states && rs[i].settings.key == states[rs[i].name])
      && (forall k :: k in states ==> exists i :: 0 <= i < |rs| && rs[i].name == k)
      && (forall i, j :: 0 <= i < j < |rs| ==> rs[i].name != rs[j].name)
  {
    var keys := order(states);
    assert Enumerates(keys, states);
    EnumeratesSize(keys, states);
    RemoteStatesOfEnumeration(config, states, keys);
    var rs := RemoteStates(config, states, keys);
    forall k | k in states
      ensures exists i :: 0 <= i < |rs| && rs[i].name == k
    {
      var j :| 0 <= j < |keys| && keys[j] == k;
      assert rs[j].name == k;
    }
    forall i, j | 0 <= i < j < |rs|
      ensures rs[i].name != rs[j].name
    {
      assert rs[i].name == keys[i] && rs[j].name == keys[j];
    }
    forall i | 0 <= i < |rs|
      ensures rs[i].name in states && rs[i].settings.key == states[rs[i].name]
    {
      assert rs[i].name == keys[i];
    }
  }

  /** The rendered backend up to the opening quote of its `key` value; it
      depends on the bucket and the table only. */
  function KeyBefore(config: Config): string
  {
    "terraform {\n\t\tbackend \"s3\" {\n"
      + "\t\t  bucket         = \"" + config.s3Bucket + "\"\n"
      + "\t\t  dynamodb_table = \"" + config.dynamoTable + "\"\n"
      + "\t\t  key            = \""
  }

  /** The rendered backend from the closing quote of its `key` value; it
      depends on the region only. */
  function KeyAfter(config: Config): string
  {
    "\"\n" + "\t\t  region         = \"" + config.awsRegion + "\"\n" + "\t\t}\n\t  }\n\t  "
  }

  /** The rendered backend names the task in its `key` line, between text that
      depends only on the bucket and table before it and the region after. */
  lemma BackendKeyLine(config: Config, taskName: string)
    ensures RenderBackend(Backend(config, taskName)) == KeyBefore(config) + taskName + KeyAfter(config)
  {
  }

  lemma MiddleDistinguishes(p: string, a: string, b: string, q: string)
    requires a != b
    ensures p + a + q != p + b + q
  {
    if |a| == |b| {
      var j :| 0 <= j < |a| && a[j] != b[j];
      assert (p + a + q)[|p| + j] == a[j];
      assert (p + b + q)[|p| + j] == b[j];
    } else {
      assert |p + a + q| != |p + b + q|;
    }
  }

  /** Two tasks with different names get different backend files, so no two
      tasks share a state object. */
  lemma BackendKeyDistinguishes(config: Config, a: string, b: string)
    requires a != b
    ensures RenderBackend(Backend(config, a)) != RenderBackend(Backend(config, b))
  {
    BackendKeyLine(config, a);
    BackendKeyLine(config, b);
    MiddleDistinguishes(KeyBefore(config), a, b, KeyAfter(config));
  }

  /** An unsupported store is refused before any file is touched. */
  lemma UnsupportedStoreTouchesNothing(config: Config, name: string, path: string, states: map<string, string>, order: Order,
                                       open: string -> Outcome<string>, write: (string, string) -> Outcome<string>)
    requires config.stateStore != "aws"
    ensures WriteStateFiles(config, name, path, states, order, open, write).actions == []
    ensures WriteStateFiles(config, name, path, states, order, open, write).outcome == Fail(config.stateStore + " is not a supported remote state backend")
  {
  }

  /** When every open and write succeeds: the backend file is opened and
      filled, the remote-state file opened, one block written per remote state
      in range order, then success is reported. */
  lemma AwsFilesWritten(config: Config, name: string, path: string, states: map<string, string>, order: Order,
                        open: string -> Outcome<string>, write: (string, string) -> Outcome<string>)
    requires config.stateStore == "aws"
    requires forall f :: open(f).Pass?
    requires forall f, t :: write(f, t).Pass?
    ensures var bf, rf := Join(path, BackendFile), Join(path, RemoteStatesFile);
      var rs := RemoteStates(config, states, order(states));
      var r := WriteStateFiles(config, name, path, states, order, open, write);
      && r.outcome == Pass
      && r.actions == [Open(bf), Write(bf, RenderBackend(Backend(config, name))), Open(rf)]
           + Flat(ActionsOf(RemoteWrites(rf, rs, write)))
           + [Print("successfully wrote state files to " + path + "\n")]
  {
    var ss := AwsStages(config, name, path, states, order, open, write);
    var bf, rf := Join(path, BackendFile), Join(path, RemoteStatesFile);
    var rs := RemoteStates(config, states, order(states));
    var head := [OpenStage(bf, open), WriteStage(bf, RenderBackend(Backend(config, name)), write), OpenStage(rf, open)];
    var mid := RemoteWrites(rf, rs, write);
    var tail := [StageRun([Print("successfully wrote state files to " + path + "\n")], Pass)];
    assert ss == head + mid + tail;
    forall i | 0 <= i < |ss|
      ensures ss[i].outcome.Pass?
    {
      if i < 3 {
        assert ss[i] == head[i];
      } else if i < 3 + |mid| {
        assert ss[i] == mid[i - 3];
      } else {
        assert ss[i] == tail[0];
      }
    }
    RunStagesFails(ss);
    FlatOfThree(head, mid, tail);
  }

  lemma FlatOfThree(head: seq<StageRun>, mid: seq<StageRun>, tail: seq<StageRun>)
    requires |head| == 3 && |tail| == 1
    ensures Flat(ActionsOf(head + mid + tail))
      == head[0].actions + head[1].actions + head[2].actions + Flat(ActionsOf(mid)) + tail[0].actions
  {
    assert ActionsOf(head + mid + tail) == ActionsOf(head) + ActionsOf(mid) + ActionsOf(tail);
    FlatAppend(ActionsOf(head) + ActionsOf(mid), ActionsOf(tail));
    FlatAppend(ActionsOf(head), ActionsOf(mid));
    assert Flat(ActionsOf(tail)) == tail[0].actions + Flat(ActionsOf(tail)[1..]);
    var h := ActionsOf(head);
    assert Flat(h) == h[0] + Flat(h[1..]);
    assert Flat(h[1..]) == h[1] + Flat(h[2..]);
    assert Flat(h[2..]) == h[2] + Flat(h[3..]);
  }
}

=== FILE: steps.dfy ===
/** The step sequencer's validate verb (internal/step/step.go).

    A step is an ordered group of tasks; the sequencer walks steps in order and
    the tasks of each step in order. The model is generic in the task type: a
    task is identified by its position, and the outcomes its `Validate` and
    `Finalize` return are oracles over positions. A run is the trace of calls
    made plus the returned error. */
module Steps {
  import opened Wrappers
  import opened Seqs

  type Step<T> = seq<T>

  /** Task `index` of step `step`. */
  datatype Pos = Pos(step: nat, index: nat)

  /** A call the sequencer made, with what the task returned. */
  datatype Event<E> = Validated(at: Pos, outcome: Outcome<E>) | Finalized(at: Pos, outcome: Outcome<E>)

  datatype Run<E> = Run(trace: seq<Event<E>>, result: Outcome<E>)

  /** Step-then-task order. */
  predicate Before(p: Pos, q: Pos)
  {
    p.step < q.step || (p.step == q.step && p.index < q.index)
  }

  predicate ValidPos<T>(steps: seq<Step<T>>, p: Pos)
  {
    p.step < |steps| && p.index < |steps[p.step]|
  }

  /** The positions of step `i`'s first `n` tasks. */
  function Positions(i: nat, n: nat): (r: seq<Pos>)
    ensures |r| == n
    ensures forall j :: 0 <= j < n ==> r[j] == Pos(i, j)
  {
    seq(n, j requires 0 <= j < n => Pos(i, j))
  }

  /** Every task position, in the order the two nested loops visit them. */
  function Flatten<T>(steps: seq<Step<T>>): (ps: seq<Pos>)
    ensures forall p :: p in ps <==> ValidPos(steps, p)
    ensures forall i, j :: 0 <= i < j < |ps| ==> Before(ps[i], ps[j])
    decreases |steps|
  {
    if |steps| == 0 then []
    else
      var init := Flatten(steps[..|steps| - 1]);
      var last := Positions(|steps| - 1, |steps[|steps| - 1]|);
      assert forall p :: p in init ==> p.step < |steps| - 1;
      init + last
  }

  lemma FlattenStep<T>(steps: seq<Step<T>>, i: nat)
    requires i < |steps|
    ensures Flatten(steps[..i + 1]) == Flatten(steps[..i]) + Positions(i, |steps[i]|)
  {
    assert steps[..i + 1][..i] == steps[..i];
  }

  /** Flattening a prefix of the steps gives a prefix of the positions. */
  lemma {:induction false} FlattenPrefix<T>(steps: seq<Step<T>>, m: nat)
    requires m <= |steps|
    ensures |Flatten(steps[..m])| <= |Flatten(steps)|
    ensures Flatten(steps[..m]) == Flatten(steps)[..|Flatten(steps[..m])|]
    decreases |steps| - m
  {
    if m == |steps| {
      assert steps[..m] == steps;
    } else {
      FlattenPrefix(steps, m + 1);
      FlattenStep(steps, m);
    }
  }

  /** A position's validate call failed. */
  function Failing<E>(validate: Pos -> Outcome<E>): Pos -> bool
  {
    p => validate(p).Fail?
  }

  function ValidateEvents<E>(ps: seq<Pos>, validate: Pos -> Outcome<E>): (es: seq<Event<E>>)
    ensures |es| == |ps|
    ensures forall i :: 0 <= i < |ps| ==> es[i] == Validated(ps[i], validate(ps[i]))
  {
    seq(|ps|, i requires 0 <= i < |ps| => Validated(ps[i], validate(ps[i])))
  }

  function FinalizeEvents<E>(ps: seq<Pos>, finalize: Pos -> Outcome<E>): (es: seq<Event<E>>)
    ensures |es| == |ps|
    ensures forall i :: 0 <= i < |ps| ==> es[i] == Finalized(ps[i], finalize(ps[i]))
  {
    seq(|ps|, i requires 0 <= i < |ps| => Finalized(ps[i], finalize(ps[i])))
  }

  /** The positions a validate run calls `Validate` on: every task up to and
      including the first failing one. */
  function Attempted<T, E>(steps: seq<Step<T>>, validate: Pos -> Outcome<E>): seq<Pos>
  {
    var ps := Flatten(steps);
    var k := FirstWhere(ps, Failing(validate));
    if k < |ps| then ps[..k + 1] else ps
  }

  /** Independent description of a validate run: the attempted tasks are
      validated in order, then finalized in reverse order; the result is the
      first failure, if any. */
  function Reference<T, E>(steps: seq<Step<T>>, validate: Pos -> Outcome<E>, finalize: Pos -> Outcome<E>): Run<E>
  {
    var ps := Flatten(steps);
    var k := FirstWhere(ps, Failing(validate));
    var attempted := Attempted(steps, validate);
    Run(ValidateEvents(attempted, validate) + FinalizeEvents(Reverse(attempted), finalize),
        if k < |ps| then validate(ps[k]) else Pass)
  }

  /** `ExecuteValidate`: for each task, register its `Finalize` on the defer
      stack, then call `Validate`; on the first error stop and return it. On
      return the deferred calls run, most recent first, and their errors are
      dropped. */
  method ExecuteValidate<T, E>(steps: seq<Step<T>>, validate: Pos -> Outcome<E>, finalize: Pos -> Outcome<E>)
    returns (trace: seq<Event<E>>, result: Outcome<E>)
    ensures Run(trace, result) == Reference(steps, validate, finalize)
  {
    ghost var ps := Flatten(steps);
    trace := [];
    result := Pass;
    var deferred: seq<Pos> := [];  // the defer stack; its head runs first
    ghost var seen: seq<Pos> := [];
    var failed := false;
    var i := 0;
    label walk:
    while i < |steps|
      invariant 0 <= i <= |steps|
      invariant seen == Flatten(steps[..i])
      invariant |seen| <= |ps| && seen == ps[..|seen|]
      invariant trace == ValidateEvents(seen, validate)
      invariant deferred == Reverse(seen)
      invariant forall q :: 0 <= q < |seen| ==> validate(seen[q]).Pass?
    {
      var j := 0;
      while j < |steps[i]|
        invariant 0 <= j <= |steps[i]|
        invariant seen == Flatten(steps[..i]) + Positions(i, j)
        invariant |seen| <= |ps| && seen == ps[..|seen|]
        invariant trace == ValidateEvents(seen, validate)
        invariant deferred == Reverse(seen)
        invariant forall q :: 0 <= q < |seen| ==> validate(seen[q]).Pass?
      {
        var p := Pos(i, j);
        NextPosition(steps, i, j, seen);
        ReverseSnoc(seen, p);
        ValidateEventsSnoc(seen, p, validate);
        deferred := [p] + deferred;       // defer t.Finalize()
        var outcome := validate(p);       // t.Validate()
        trace := trace + [Validated(p, outcome)];
        seen := seen + [p];
        if outcome.Fail? {
          result := outcome;
          failed := true;
          break walk;                     // return err
        }
        j := j + 1;
      }
      FlattenStep(steps, i);
      i := i + 1;
    }
    assert !failed ==> steps[..i] == steps;
    SeenIsAttempted(steps, validate, finalize, seen, failed);
    var finalizers := RunDeferred(deferred, finalize);
    trace := trace + finalizers;
  }

  /** The task after `seen` in the nested loop order is `Pos(i, j)`. */
  lemma NextPosition<T>(steps: seq<Step<T>>, i: nat, j: nat, seen: seq<Pos>)
    requires i < |steps| && j < |steps[i]|
    requires seen == Flatten(steps[..i]) + Positions(i, j)
    ensures seen + [Pos(i, j)] == Flatten(steps[..i]) + Positions(i, j + 1)
    ensures |seen| < |Flatten(steps)| && seen + [Pos(i, j)] == Flatten(steps)[..|seen| + 1]
  {
    FlattenStep(steps, i);
    FlattenPrefix(steps, i + 1);
    assert Positions(i, j + 1) == Positions(i, j) + [Pos(i, j)];
    assert Positions(i, |steps[i]|)[..j + 1] == Positions(i, j + 1);
  }

  lemma ReverseSnoc<X>(xs: seq<X>, x: X)
    ensures Reverse(xs + [x]) == [x] + Reverse(xs)
  {
  }

  lemma ValidateEventsSnoc<E>(ps: seq<Pos>, p: Pos, validate: Pos -> Outcome<E>)
    ensures ValidateEvents(ps + [p], validate) == ValidateEvents(ps, validate) + [Validated(p, validate(p))]
  {
  }

  /** The deferred calls on function return: pop the stack until it is empty,
      calling each `Finalize`; the errors are recorded but not looked at. */
  method RunDeferred<E>(stack: seq<Pos>, finalize: Pos -> Outcome<E>) returns (events: seq<Event<E>>)
    ensures events == FinalizeEvents(stack, finalize)
  {
    events := [];
    var rest := stack;
    while |rest| > 0
      invariant |rest| <= |stack|
      invariant rest == stack[|stack| - |rest|..]
      invariant events == FinalizeEvents(stack[..|stack| - |rest|], finalize)
    {
      var p := rest[0];
      events := events + [Finalized(p, finalize(p))];
      rest := rest[1..];
    }
  }

  /** Where the validate loop stops is where the reference stops. */
  lemma SeenIsAttempted<T, E>(steps: seq<Step<T>>, validate: Pos -> Outcome<E>, finalize: Pos -> Outcome<E>, seen: seq<Pos>, failed: bool)
    requires |seen| <= |Flatten(steps)| && seen == Flatten(steps)[..|seen|]
    requires forall q :: 0 <= q < |seen| - 1 ==> validate(seen[q]).Pass?
    requires !failed ==> seen == Flatten(steps) && forall q :: 0 <= q < |seen| ==> validate(seen[q]).Pass?
    requires failed ==> |seen| > 0 && validate(seen[|seen| - 1]).Fail?
    ensures seen == Attempted(steps, validate)
    ensures Reference(steps, validate, finalize).result == (if failed then validate(seen[|seen| - 1]) else Pass)
  {
    var ps := Flatten(steps);
    if failed {
      FirstWhereUnique(ps, Failing(validate), |seen| - 1);
    } else {
      FirstWhereUnique(ps, Failing(validate), |ps|);
    }
  }

  // ---------------------------------------------------------------------
  // What a run promises, stated on the calls it makes.

  /** The positions whose `Validate` was called, in call order. */
  function ValidatedAt<E>(trace: seq<Event<E>>): seq<Pos>
  {
    if |trace| == 0 then []
    else (if trace[0].Validated? then [trace[0].at] else []) + ValidatedAt(trace[1..])
  }

  /** The positions whose `Finalize` was called, in call order. */
  function FinalizedAt<E>(trace: seq<Event<E>>): seq<Pos>
  {
    if |trace| == 0 then []
    else (if trace[0].Finalized? then [trace[0].at] else []) + FinalizedAt(trace[1..])
  }

  lemma {:induction false} CallsOfEvents<E>(ps: seq<Pos>, qs: seq<Pos>, validate: Pos -> Outcome<E>, finalize: Pos -> Outcome<E>)
    ensures ValidatedAt(ValidateEvents(ps, validate) + FinalizeEvents(qs, finalize)) == ps
    ensures FinalizedAt(ValidateEvents(ps, validate) + FinalizeEvents(qs, finalize)) == qs
    decreases |ps| + |qs|
  {
    var t := ValidateEvents(ps, validate) + FinalizeEvents(qs, finalize);
    if |ps| > 0 {
      assert t[1..] == ValidateEvents(ps[1..], validate) + FinalizeEvents(qs, finalize);
      CallsOfEvents(ps[1..], qs, validate, finalize);
      assert ps == [ps[0]] + ps[1..];
    } else if |qs| > 0 {
      assert t[1..] == ValidateEvents([], validate) + FinalizeEvents(qs[1..], finalize);
      CallsOfEvents([], qs[1..], validate, finalize);
      assert qs == [qs[0]] + qs[1..];
    }
  }

  lemma {:induction false} DistinctCountsOnce<X>(xs: seq<X>)
    requires Distinct(xs)
    ensures forall p :: multiset(xs)[p] == (if p in xs then 1 else 0)
  {
    if |xs| > 0 {
      assert xs == [xs[0]] + xs[1..];
      assert xs[0] !in xs[1..];
      DistinctCountsOnce(xs[1..]);
    }
  }

  /** The calls of a reference run, read back from its trace. */
  lemma ReferenceCalls<T, E>(steps: seq<Step<T>>, validate: Pos -> Outcome<E>, finalize: Pos -> Outcome<E>)
    ensures ValidatedAt(Reference(steps, validate, finalize).trace) == Attempted(steps, validate)
    ensures FinalizedAt(Reference(steps, validate, finalize).trace) == Reverse(Attempted(steps, validate))
  {
    var attempted := Attempted(steps, validate);
    CallsOfEvents(attempted, Reverse(attempted), validate, finalize);
  }

  /** `Validate` is called on tasks in step-then-task order, starting with the
      first task and never skipping one. */
  lemma ValidatesInStepOrder<T, E>(steps: seq<Step<T>>, validate: Pos -> Outcome<E>, finalize: Pos -> Outcome<E>)
    ensures var vs := ValidatedAt(Reference(steps, validate, finalize).trace);
      && |vs| <= |Flatten(steps)| && vs == Flatten(steps)[..|vs|]
      && (forall i, j :: 0 <= i < j < |vs| ==> Before(vs[i], vs[j]))
  {
    ReferenceCalls(steps, validate, finalize);
  }

  /** The calls stop at the first failure, whose error is the result; every
      earlier call succeeded. Without a failure every task is validated and the
      result is nil. */
  lemma StopsAtFirstError<T, E>(steps: seq<Step<T>>, validate: Pos -> Outcome<E>, finalize: Pos -> Outcome<E>)
    ensures var r := Reference(steps, validate, finalize);
      var vs := ValidatedAt(r.trace);
      && (forall i :: 0 <= i < |vs| - 1 ==> validate(vs[i]).Pass?)
      && (r.result.Fail? <==> |vs| > 0 && validate(vs[|vs| - 1]).Fail?)
      && (r.result.Fail? ==> r.result == validate(vs[|vs| - 1]))
      && (r.result.Pass? ==> vs == Flatten(steps))
  {
    ReferenceCalls(steps, validate, finalize);
    var ps := Flatten(steps);
    var k := FirstWhere(ps, Failing(validate));
    assert Reference(steps, validate, finalize).result == if k < |ps| then validate(ps[k]) else Pass;
    CutAtFirstFailure(ps, validate);
  }

  /** Cutting a position list just after its first failure leaves a list whose
      last entry, and only that one, may fail. */
  lemma CutAtFirstFailure<E>(ps: seq<Pos>, validate: Pos -> Outcome<E>)
    ensures var k := FirstWhere(ps, Failing(validate));
      var vs := if k < |ps| then ps[..k + 1] else ps;
      && (forall i :: 0 <= i < |vs| - 1 ==> validate(vs[i]).Pass?)
      && (k < |ps| ==> |vs| > 0 && vs[|vs| - 1] == ps[k] && validate(ps[k]).Fail?)
      && (k == |ps| ==> vs == ps && (|vs| > 0 ==> validate(vs[|vs| - 1]).Pass?))
  {
    var k := FirstWhere(ps, Failing(validate));
    if k == |ps| && |ps| > 0 {
      assert !Failing(validate)(ps[|ps| - 1]);
    }
  }

  /** A task is left unvalidated only when an earlier task (in step-then-task
      order) failed. */
  lemma SkippedOnlyAfterFailure<T, E>(steps: seq<Step<T>>, validate: Pos -> Outcome<E>, finalize: Pos -> Outcome<E>, p: Pos)
    requires ValidPos(steps, p)
    requires p !in ValidatedAt(Reference(steps, validate, finalize).trace)
    ensures exists q :: q in ValidatedAt(Reference(steps, validate, finalize).trace) && validate(q).Fail? && Before(q, p)
  {
    ReferenceCalls(steps, validate, finalize);
    var ps := Flatten(steps);
    var k := FirstWhere(ps, Failing(validate));
    var attempted := Attempted(steps, validate);
    var n :| 0 <= n < |ps| && ps[n] == p;
    assert k < |ps| && k < n;
    assert ps[k] == attempted[k];
  }

  /** Every task whose `Validate` was called, the failing one included, is
      finalized exactly once, and no other task is; finalizers run in reverse
      order of registration. */
  lemma FinalizeOncePerValidated<T, E>(steps: seq<Step<T>>, validate: Pos -> Outcome<E>, finalize: Pos -> Outcome<E>)
    ensures var r := Reference(steps, validate, finalize);
      var vs := ValidatedAt(r.trace);
      var fs := FinalizedAt(r.trace);
      && fs == Reverse(vs)
      && (forall p :: multiset(fs)[p] == (if p in vs then 1 else 0))
  {
    ReferenceCalls(steps, validate, finalize);
    var attempted := Attempted(steps, validate);
    AttemptedDistinct(steps, validate);
    ReversePreserves(attempted);
    DistinctCountsOnce(Reverse(attempted));
  }

  lemma AttemptedDistinct<T, E>(steps: seq<Step<T>>, validate: Pos -> Outcome<E>)
    ensures Distinct(Attempted(steps, validate))
  {
    var attempted := Attempted(steps, validate);
    var ps := Flatten(steps);
    assert |attempted| <= |ps| && forall x :: 0 <= x < |attempted| ==> attempted[x] == ps[x];
    forall i, j | 0 <= i < j < |attempted|
      ensures attempted[i] != attempted[j]
    {
      assert Before(ps[i], ps[j]);
    }
  }

  /** Reversal keeps the elements and their distinctness. */
  lemma ReversePreserves<X>(xs: seq<X>)
    ensures forall x :: x in Reverse(xs) <==> x in xs
    ensures Distinct(xs) ==> Distinct(Reverse(xs))
  {
    var rev := Reverse(xs);
    forall x
      ensures x in rev <==> x in xs
    {
      if x in xs {
        var n :| 0 <= n < |xs| && xs[n] == x;
        assert rev[|xs| - 1 - n] == x;
      }
      if x in rev {
        var n :| 0 <= n < |rev| && rev[n] == x;
        assert xs[|xs| - 1 - n] == x;
      }
    }
    if Distinct(xs) {
      forall i, j | 0 <= i < j < |rev|
        ensures rev[i] != rev[j]
      {
        assert xs[|xs| - 1 - j] != xs[|xs| - 1 - i];
      }
    }
  }

  /** Finalizers run only after the loop is left: no validate call follows a
      finalize call. */
  lemma FinalizersRunLast<T, E>(steps: seq<Step<T>>, validate: Pos -> Outcome<E>, finalize: Pos -> Outcome<E>)
    ensures var t := Reference(steps, validate, finalize).trace;
      forall i, j :: 0 <= i < j < |t| && t[i].Finalized? ==> t[j].Finalized?
  {
  }

  /** `Finalize`'s error never reaches the caller: the result and the calls
      made do not depend on what finalizers return. */
  lemma FinalizeErrorsDiscarded<T, E>(steps: seq<Step<T>>, validate: Pos -> Outcome<E>, f1: Pos -> Outcome<E>, f2: Pos -> Outcome<E>)
    ensures Reference(steps, validate, f1).result == Reference(steps, validate, f2).result
    ensures ValidatedAt(Reference(steps, validate, f1).trace) == ValidatedAt(Reference(steps, validate, f2).trace)
    ensures FinalizedAt(Reference(steps, validate, f1).trace) == FinalizedAt(Reference(steps, validate, f2).trace)
  {
    ReferenceCalls(steps, validate, f1);
    ReferenceCalls(steps, validate, f2);
  }

  lemma {:induction false} FlattenOfEmptySteps<T>(steps: seq<Step<T>>)
    requires forall i :: 0 <= i < |steps| ==> |steps[i]| == 0
    ensures Flatten(steps) == []
    decreases |steps|
  {
    if |steps| > 0 {
      FlattenOfEmptySteps(steps[..|steps| - 1]);
    }
  }

  /** No tasks, no calls: an empty step list or a list of empty steps returns
      nil without calling anything. */
  lemma EmptyStepsNoCalls<T, E>(steps: seq<Step<T>>, validate: Pos -> Outcome<E>, finalize: Pos -> Outcome<E>)
    requires forall i :: 0 <= i < |steps| ==> |steps[i]| == 0
    ensures Reference(steps, validate, finalize) == Run([], Pass)
  {
    FlattenOfEmptySteps(steps);
  }

  /** Two one-task steps whose first task fails: that error is returned, the
      second task is never validated, and the first is finalized once. */
  lemma FirstStepFailureScenario<T, E>(t1: T, t2: T, e: E, validate: Pos -> Outcome<E>, finalize: Pos -> Outcome<E>)
    requires validate(Pos(0, 0)) == Fail(e)
    ensures Reference([[t1], [t2]], validate, finalize)
         == Run([Validated(Pos(0, 0), Fail(e)), Finalized(Pos(0, 0), finalize(Pos(0, 0)))], Fail(e))
  {
    var steps: seq<Step<T>> := [[t1], [t2]];
    assert steps[..1] == [[t1]];
    assert steps[..1][..0] == [];
    assert Positions(0, 1) == [Pos(0, 0)];
    assert Positions(1, 1) == [Pos(1, 0)];
    assert Flatten(steps[..1]) == [Pos(0, 0)];
    var ps := Flatten(steps);
    assert ps == [Pos(0, 0), Pos(1, 0)];
    assert FirstWhere(ps, Failing(validate)) == 0;
    var attempted := Attempted(steps, validate);
    assert attempted == [Pos(0, 0)];
    assert Reverse(attempted) == [Pos(0, 0)];
    assert ValidateEvents(attempted, validate) == [Validated(Pos(0, 0), Fail(e))];
    assert FinalizeEvents(Reverse(attempted), finalize) == [Finalized(Pos(0, 0), finalize(Pos(0, 0)))];
  }
}

=== FILE: tasks.dfy ===
/** The task interface (internal/task/task.go) as a closed set of variants, the
    five verbs every variant answers, and the bridge to the step sequencer: a
    step list of tasks gives the sequencer its per-position outcomes. */
module Tasks {
  import opened Wrappers
  import opened Seqs
  import opened Settings
  import opened Options
  import opened Steps
  import StateProbe
  import Terraform

  /** The two task kinds the core constructs. */
  datatype Task =
    | StateChecker(options: TaskOptions)        // internal/task/state
    | TerraformExecutor(options: TaskOptions)   // internal/task/terraform

  /** `state.NewTask(opts...)`. */
  function NewStateChecker(opts: seq<TaskOption>): (t: Task)
    ensures t.StateChecker?
    ensures opts == [] ==> t.options == Background
  {
    StateChecker(NewTaskOptions(opts))
  }

  /** `terraform.NewTask(opts...)`. */
  function NewTerraformExecutor(opts: seq<TaskOption>): (t: Task)
    ensures t.TerraformExecutor?
    ensures opts == [] ==> t.options == Background
  {
    TerraformExecutor(NewTaskOptions(opts))
  }

  /** The capability set shared by every task. */
  datatype Verb = Validate | Plan | Apply | Destroy | Finalize

  /** Everything outside the tasks: the configuration, the executor's host,
      and the object store the state checker probes. */
  datatype World = World(config: Config, host: Terraform.Host, store: StateProbe.Store)

  /** The error a verb returns. */
  function Perform(t: Task, v: Verb, w: World): (r: Outcome<string>)
    ensures v == Apply || v == Destroy || v == Finalize ==> r == Pass
    ensures t.StateChecker? && v == Plan ==> r == Pass
  {
    match (t, v)
    case (StateChecker(o), Validate) => Reported(StateProbe.Validate(w.config, o.name, w.store).1.result)
    case (StateChecker(o), _) => Reported(StateProbe.NoOp())
    case (TerraformExecutor(o), Validate) => Terraform.Validate(w.config, o, w.host).result
    case (TerraformExecutor(o), Plan) => Terraform.Plan(o, w.host).result
    case (TerraformExecutor(o), _) => Terraform.NoOp().result
  }

  /** A state checker's error as the caller sees it: its message. */
  function Reported(r: Outcome<StateProbe.ProbeError>): Outcome<string>
  {
    if r.Pass? then Pass else Fail(StateProbe.Message(r.error))
  }

  /** The sequencer's oracle for a verb: the outcome of the task at each
      position of a step list. */
  function Outcomes(steps: seq<Step<Task>>, v: Verb, w: World): Pos -> Outcome<string>
  {
    p => if ValidPos(steps, p) then Perform(steps[p.step][p.index], v, w) else Pass
  }

  /** `Finalize` returns nil at every position. */
  lemma FinalizeOraclePasses(steps: seq<Step<Task>>, w: World)
    ensures forall p :: Outcomes(steps, Finalize, w)(p) == Pass
  {
    forall p
      ensures Outcomes(steps, Finalize, w)(p) == Pass
    {
      if ValidPos(steps, p) {
        var t := steps[p.step][p.index];
        assert Perform(t, Finalize, w) == Pass;
      }
    }
  }

  /** A validate run over real tasks: after the `Validate` calls come the
      deferred `Finalize` calls, one per validated task, and each returns
      nil, so the run's error can only come from a `Validate`. */
  lemma FinalizersAllSucceed(steps: seq<Step<Task>>, w: World)
    ensures var validate, finalize := Outcomes(steps, Validate, w), Outcomes(steps, Finalize, w);
      var r := Reference(steps, validate, finalize);
      var n := |Attempted(steps, validate)|;
      && |r.trace| == 2 * n
      && forall i :: n <= i < |r.trace| ==> r.trace[i].Finalized? && r.trace[i].outcome == Pass
  {
    var validate, finalize := Outcomes(steps, Validate, w), Outcomes(steps, Finalize, w);
    FinalizeOraclePasses(steps, w);
    var attempted := Attempted(steps, validate);
    var r := Reference(steps, validate, finalize);
    var vs, fs := ValidateEvents(attempted, validate), FinalizeEvents(Reverse(attempted), finalize);
    assert r.trace == vs + fs;
    forall i | |vs| <= i < |r.trace|
      ensures r.trace[i].Finalized? && r.trace[i].outcome == Pass
    {
      assert r.trace[i] == fs[i - |vs|];
    }
  }
}

=== FILE: terraform.dfy ===
/** The terraform executor task (internal/task/terraform/terraform.go).
    Everything it does to the outside world goes through `Host`: each effect
    is an oracle that says whether it succeeded, and the executor's record of
    actions says what it attempted, in order. */
module Terraform {
  import opened Wrappers
  import opened Seqs
  import opened MapRange
  import opened Settings
  import opened Options
  import opened TerraformOptions
  import opened Stages
  import opened Relay
  import opened Url
  import opened TerraformEnv
  import opened StateFiles

  /** What running one terraform command yields: whether each pipe could be
      set up, whether the process started, what each stream carried, and the
      exit status `Wait` reports. */
  datatype Process = Process(
    stdoutPipe: Outcome<string>,
    stderrPipe: Outcome<string>,
    start: Outcome<string>,
    stdout: Stream,
    stderr: Stream,
    wait: Outcome<string>)

  /** The outside world as the executor sees it. */
  datatype Host = Host(
    environ: seq<string>,                       // os.Environ()
    mkdir: string -> Outcome<string>,           // os.MkdirAll(path, 0o777)
    clone: (string, string) -> Outcome<string>, // git clone of a url into a path
    open: string -> Outcome<string>,            // os.OpenFile(file, O_WRONLY|O_CREATE)
    write: (string, string) -> Outcome<string>, // one write of a text to an open file
    run: Command -> Process,                    // the terraform subprocess
    order: Order)                               // the runtime's map iteration order

  /** The command `executeTerraform(args)` builds: run in the task's path with
      the assembled environment. */
  function CommandFor(o: TaskOptions, host: Host, args: seq<string>): (c: Command)
    ensures c.dir == o.path && c.args == args
  {
    Command(o.path, args, SubprocessEnv(host.environ, EnvVarsOf(o), VarsOf(o), host.order))
  }

  function StdoutPipeFailed(e: string): string { "stdoutpip failed: " + e }
  function StderrPipeFailed(e: string): string { "stderrpipe failed: " + e }
  function StartFailed(e: string): string { "failed to execute terraform: " + e }

  /** The outcome of `executeTerraform(args)`. When both pipes are set up,
      each stream is relayed as its reader saw it before the call returns,
      whether or not the process started; the result is the start error, else
      the exit status. */
  function TerraformRun(o: TaskOptions, host: Host, args: seq<string>): (r: StageRun)
    ensures var p := host.run(CommandFor(o, host, args));
      r.outcome.Pass? <==> p.stdoutPipe.Pass? && p.stderrPipe.Pass? && p.start.Pass? && p.wait.Pass?
  {
    var cmd := CommandFor(o, host, args);
    var p := host.run(cmd);
    if p.stdoutPipe.Fail? then StageRun([], Fail(StdoutPipeFailed(p.stdoutPipe.error)))
    else if p.stderrPipe.Fail? then StageRun([], Fail(StderrPipeFailed(p.stderrPipe.error)))
    else
      StageRun([Terraform(cmd, p.start.Pass?, p.stdout, p.stderr)],
               if p.start.Fail? then Fail(StartFailed(p.start.error)) else p.wait)
  }

  /** `executeTerraform`: set up the pipes, start one relay per stream, start
      the process, take the process's result, and wait for both relays (the
      deferred double receive) before returning it. The relays run one after
      the other here; their writes go to different streams. What each relay
      reads is the stream oracle: the result is taken before the relays are
      drained, and `Wait` closes the pipes, so a stream may be cut short and
      end in a read error, which the oracle's data and failure express. */
  method ExecuteTerraform(o: TaskOptions, host: Host, args: seq<string>)
    returns (run: StageRun, outLines: seq<string>, errLines: seq<string>)
    ensures run == TerraformRun(o, host, args)
    ensures var p := host.run(CommandFor(o, host, args));
      if p.stdoutPipe.Pass? && p.stderrPipe.Pass?
      then outLines == Emitted(o.name, p.stdout) && errLines == Emitted(o.name, p.stderr)
      else outLines == [] && errLines == []
  {
    var cmd := Command(o.path, args, SubprocessEnv(host.environ, EnvVarsOf(o), VarsOf(o), host.order));
    var p := host.run(cmd);
    if p.stdoutPipe.Fail? {
      return StageRun([], Fail(StdoutPipeFailed(p.stdoutPipe.error))), [], [];
    }
    if p.stderrPipe.Fail? {
      return StageRun([], Fail(StderrPipeFailed(p.stderrPipe.error))), [], [];
    }
    outLines := RelayStream(o.name, p.stdout);
    errLines := RelayStream(o.name, p.stderr);
    // both relays have signalled completion
    var result := if p.start.Fail? then Fail(StartFailed(p.start.error)) else p.wait;
    run := StageRun([Terraform(cmd, p.start.Pass?, p.stdout, p.stderr)], result);
  }

  /** `os.MkdirAll(path)`. */
  function MkdirStage(o: TaskOptions, host: Host): StageRun
  {
    StageRun([MakeDir(o.path)], host.mkdir(o.path))
  }

  /** The text of the error `url.Parse` returns, `parse "<url>": <reason>`
      (Go's quoting of special characters in the locator is not modelled). */
  function ParseError(raw: string, reason: string): string
  {
    "parse \"" + raw + "\": " + reason
  }

  /** Parse the source locator and admit only `http` and `https`. */
  function SchemeGate(source: string): (r: Outcome<string>)
    ensures r.Pass? <==> Scheme(source) == Success("http") || Scheme(source) == Success("https")
  {
    match Scheme(source)
    case Failure(e) => Fail(ParseError(e.url, e.reason))
    case Success(s) =>
      if s == "http" || s == "https" then Pass else Fail("scheme " + s + " is not supported")
  }

  function SchemeStage(o: TaskOptions): StageRun
  {
    StageRun([], SchemeGate(o.source))
  }

  /** `executeGitClone`: announce, clone, and announce success. */
  function CloneStage(o: TaskOptions, host: Host): StageRun
  {
    var outcome := host.clone(o.path, o.source);
    StageRun([Print("cloning repo " + o.source + "\n"), Clone(o.path, o.source)]
               + (if outcome.Pass? then [Print("successfully cloned repo " + o.source + "\n")] else []),
             outcome)
  }

  function StateFilesStage(config: Config, o: TaskOptions, host: Host): StageRun
  {
    WriteStateFiles(config, o.name, o.path, RemoteStatesOf(o), host.order, host.open, host.write)
  }

  /** The terraform subcommands the verbs run. */
  const InitArgs: seq<string> := ["init"]

  const ValidateArgs: seq<string> := ["validate"]
  const PlanArgs: seq<string> := ["plan"]

  /** The stages of `Validate`, in order. */
  function ValidateStages(config: Config, o: TaskOptions, host: Host): (ss: seq<StageRun>)
    ensures |ss| == 6
  {
    [MkdirStage(o, host), SchemeStage(o), CloneStage(o, host), StateFilesStage(config, o, host),
     TerraformRun(o, host, InitArgs), TerraformRun(o, host, ValidateArgs)]
  }

  function Validate(config: Config, o: TaskOptions, host: Host): (r: Report)
    ensures r.result.Fail? <==> exists i :: 0 <= i < 6 && ValidateStages(config, o, host)[i].outcome.Fail?
  {
    RunStagesFails(ValidateStages(config, o, host));
    RunStages(ValidateStages(config, o, host))
  }

  /** `Plan` runs the `plan` subcommand and nothing else. */
  function Plan(o: TaskOptions, host: Host): Report
  {
    RunStages([TerraformRun(o, host, PlanArgs)])
  }

  /** `Apply`, `Destroy` and `Finalize` do nothing and succeed. */
  function NoOp(): Report
  {
    Report([], Pass)
  }

  // ---------------------------------------------------------------------
  // What `Validate`, `Plan` and the other verbs promise.

  /** A failed `mkdir` stops `Validate` before anything else. */
  lemma MkdirFailureStops(config: Config, o: TaskOptions, host: Host)
    requires host.mkdir(o.path).Fail?
    ensures Validate(config, o, host) == Report([MakeDir(o.path)], host.mkdir(o.path))
  {
    var ss := ValidateStages(config, o, host);
    assert ss == [ss[0]] + ss[1..];
    FailFirst(ss[0], ss[1..]);
  }

  /** A source whose scheme is neither `http` nor `https` is refused with the
      scheme in the message, but only after the working directory was
      created; nothing is cloned. */
  lemma UnsupportedSchemeRefused(config: Config, o: TaskOptions, host: Host, s: string)
    requires host.mkdir(o.path).Pass?
    requires Scheme(o.source) == Success(s) && s != "http" && s != "https"
    ensures Validate(config, o, host) == Report([MakeDir(o.path)], Fail("scheme " + s + " is not supported"))
  {
    GateRefused(config, o, host, "scheme " + s + " is not supported");
  }

  /** A source `url.Parse` rejects is refused with the parse error, after
      the working directory was created; nothing is cloned. The error quotes
      the part before the fragment, or the whole locator when the fragment's
      escapes are at fault (see `Url.Scheme`). */
  lemma UnparsableSourceRefused(config: Config, o: TaskOptions, host: Host, e: ParseFailure)
    requires host.mkdir(o.path).Pass?
    requires Scheme(o.source) == Failure(e)
    ensures Validate(config, o, host) == Report([MakeDir(o.path)], Fail(ParseError(e.url, e.reason)))
  {
    GateRefused(config, o, host, ParseError(e.url, e.reason));
  }

  /** When the gate refuses the source, `Validate` stops there, having only
      created the working directory. */
  lemma GateRefused(config: Config, o: TaskOptions, host: Host, why: string)
    requires host.mkdir(o.path).Pass? && SchemeGate(o.source) == Fail(why)
    ensures Validate(config, o, host) == Report([MakeDir(o.path)], Fail(why))
  {
    var a, b := MkdirStage(o, host), SchemeStage(o);
    ValidateStagesSplit(config, o, host);
    SecondStageFails(a, b, ValidateStages(config, o, host)[2..]);
    assert a.actions + b.actions == [MakeDir(o.path)];
  }

  /** Behind a plain `https:` locator, the fragment passes the gate exactly
      when its `%`-escapes are well formed, whatever else it holds, control
      characters included; a malformed escape is refused with an error that
      quotes the whole locator. */
  lemma FragmentEscapesGated(rest: string, f: string)
    requires '#' !in rest && NoControl(rest)
    ensures var source := "https" + ":" + rest + "#" + f;
      && (SchemeGate(source).Pass? <==> WellEscaped(f))
      && (!WellEscaped(f) ==> SchemeGate(source) == Fail(ParseError(source, InvalidEscape(BadEscape(f).value))))
  {
    FragmentOfHttpsLocator(rest, f);
  }

  /** The parse error quotes the locator without its fragment when the part
      before the fragment is at fault. */
  lemma ParseErrorOmitsFragment()
    ensures SchemeGate(":a#b") == Fail(ParseError(":a", MissingScheme))
  {
    assert ":a#b" == ":a" + "#" + "b";
    SplitFragment(":a", "b");
    assert NoControl(":a");
  }

  /** An `http` or `https` source proceeds to the clone, which follows the
      directory creation and the announcement. */
  lemma SupportedSchemeClones(config: Config, o: TaskOptions, host: Host)
    requires host.mkdir(o.path).Pass?
    requires Scheme(o.source) == Success("http") || Scheme(o.source) == Success("https")
    ensures var r := Validate(config, o, host);
      |r.actions| >= 3 && r.actions[..3] == [MakeDir(o.path), Print("cloning repo " + o.source + "\n"), Clone(o.path, o.source)]
  {
    ClonesAfterGate(config, o, host);
  }

  /** The clone follows the directory creation whenever the gate passes. */
  lemma ClonesAfterGate(config: Config, o: TaskOptions, host: Host)
    requires host.mkdir(o.path).Pass? && SchemeGate(o.source).Pass?
    ensures var r := Validate(config, o, host);
      |r.actions| >= 3 && r.actions[..3] == [MakeDir(o.path), Print("cloning repo " + o.source + "\n"), Clone(o.path, o.source)]
  {
    var a, b, c := MkdirStage(o, host), SchemeStage(o), CloneStage(o, host);
    var rest := ValidateStages(config, o, host)[3..];
    ValidateStagesSplit(config, o, host);
    ThreeStagePrefix(a, b, c, rest);
    var r := RunStages([a, b, c] + rest).actions;
    var n := |a.actions| + |c.actions|;
    assert a.actions == [MakeDir(o.path)];
    assert c.actions[..2] == [Print("cloning repo " + o.source + "\n"), Clone(o.path, o.source)];
    assert r[..3] == r[..n][..3] == (a.actions + c.actions)[..3];
  }

  /** The last two stages of `Validate` run `init` and `validate`. */
  lemma ValidateStagesLast(config: Config, o: TaskOptions, host: Host)
    ensures var ss := ValidateStages(config, o, host);
      ss[4] == TerraformRun(o, host, InitArgs) && ss[5] == TerraformRun(o, host, ValidateArgs)
  {
  }

  /** The first two or three stages of `Validate`, then the rest. */
  lemma ValidateStagesSplit(config: Config, o: TaskOptions, host: Host)
    ensures var ss := ValidateStages(config, o, host);
      && ss == [MkdirStage(o, host), SchemeStage(o), CloneStage(o, host)] + ss[3..]
      && ss == [MkdirStage(o, host), SchemeStage(o)] + ss[2..]
  {
  }

  /** A terraform run records at most one action, the `Terraform` action of
      its command with both streams relayed, and records it whenever it
      succeeds. */
  lemma TerraformRunShape(o: TaskOptions, host: Host, args: seq<string>)
    ensures var s, cmd := TerraformRun(o, host, args), CommandFor(o, host, args);
      && |s.actions| <= 1
      && (s.outcome.Pass? ==> |s.actions| == 1)
      && (forall i :: 0 <= i < |s.actions| ==>
            s.actions[i] == Terraform(cmd, host.run(cmd).start.Pass?, host.run(cmd).stdout, host.run(cmd).stderr))
  {
  }

  /** The same, for the command alone. */
  lemma TerraformRunCommand(o: TaskOptions, host: Host, args: seq<string>)
    ensures var s := TerraformRun(o, host, args);
      && |s.actions| <= 1
      && (s.outcome.Pass? ==> |s.actions| == 1)
      && (forall i :: 0 <= i < |s.actions| ==> s.actions[i].Terraform? && s.actions[i].command == CommandFor(o, host, args))
  {
    TerraformRunShape(o, host, args);
  }

  /** When every stage succeeds, `Validate` ends by running `init` and then
      `validate` in the task's path, and returns nil. */
  lemma ValidateRunsInitThenValidate(config: Config, o: TaskOptions, host: Host)
    requires forall i :: 0 <= i < 6 ==> ValidateStages(config, o, host)[i].outcome.Pass?
    ensures var r := Validate(config, o, host);
      && r.result == Pass
      && |r.actions| >= 2
      && r.actions[|r.actions| - 2].Terraform?
      && r.actions[|r.actions| - 2].command == CommandFor(o, host, InitArgs)
      && r.actions[|r.actions| - 1].Terraform?
      && r.actions[|r.actions| - 1].command == CommandFor(o, host, ValidateArgs)
  {
    TerraformRunCommand(o, host, InitArgs);
    TerraformRunCommand(o, host, ValidateArgs);
    ValidateStagesLast(config, o, host);
    LastTwoRuns(ValidateStages(config, o, host), CommandFor(o, host, InitArgs), CommandFor(o, host, ValidateArgs));
  }

  /** A clean chain whose last two stages each record one run of the given
      commands ends with those two runs. */
  lemma LastTwoRuns(ss: seq<StageRun>, first: Command, second: Command)
    requires |ss| >= 2 && forall i :: 0 <= i < |ss| ==> ss[i].outcome.Pass?
    requires |ss[|ss| - 2].actions| == 1 && ss[|ss| - 2].actions[0].Terraform? && ss[|ss| - 2].actions[0].command == first
    requires |ss[|ss| - 1].actions| == 1 && ss[|ss| - 1].actions[0].Terraform? && ss[|ss| - 1].actions[0].command == second
    ensures var r := RunStages(ss);
      && r.result == Pass && |r.actions| >= 2
      && r.actions[|r.actions| - 2].Terraform? && r.actions[|r.actions| - 2].command == first
      && r.actions[|r.actions| - 1].Terraform? && r.actions[|r.actions| - 1].command == second
  {
    EndsWithLastTwo(ss);
  }

  /** `Plan` runs exactly the `plan` subcommand in the task's path. */
  lemma PlanRunsPlan(o: TaskOptions, host: Host)
    ensures Plan(o, host).result == TerraformRun(o, host, PlanArgs).outcome
    ensures Plan(o, host).actions == TerraformRun(o, host, PlanArgs).actions
    ensures var cmd := CommandFor(o, host, PlanArgs);
      forall i :: 0 <= i < |Plan(o, host).actions| ==>
        Plan(o, host).actions[i] == Terraform(cmd, host.run(cmd).start.Pass?, host.run(cmd).stdout, host.run(cmd).stderr)
  {
    RunSingle(TerraformRun(o, host, PlanArgs));
    TerraformRunShape(o, host, PlanArgs);
  }

  /** The subprocess environment never loses the inherited entries and gains
      no `TF_VAR_` entry when the task declares no input values. */
  lemma RunEnvironment(o: TaskOptions, host: Host, args: seq<string>)
    requires Lawful(host.order)
    requires o.vars == None
    ensures CommandFor(o, host, args).env == host.environ + Assignments("", EnvVarsOf(o), host.order(EnvVarsOf(o)))
  {
    NoVarsNoTfVarEntries(host.environ, EnvVarsOf(o), host.order);
  }
}

=== FILE: terraform_env.dfy ===
/** The terraform subprocess's environment
    (internal/task/terraform/terraform.go:106-118): the inherited environment,
    then one `k=v` entry per task environment variable, then one `TF_VAR_k=v`
    entry per declared input value, each map visited in the runtime's order. */
module TerraformEnv {
  import opened Seqs
  import opened MapRange

  /** One environment entry, `fmt.Sprintf("%s=%s", k, v)` or
      `fmt.Sprintf("TF_VAR_%s=%s", k, v)`. */
  function Entry(prefix: string, k: string, v: string): string
  {
    prefix + k + "=" + v
  }

  /** One `Entry` for each key in `keys` that is in `m`, in the order of
      `keys`. */
  function Assignments(prefix: string, m: map<string, string>, keys: seq<string>): (r: seq<string>)
    ensures |r| <= |keys|
  {
    if |keys| == 0 then []
    else
      var k := keys[|keys| - 1];
      Assignments(prefix, m, keys[..|keys| - 1]) + (if k in m then [Entry(prefix, k, m[k])] else [])
  }

  /** The environment of every terraform run. */
  function SubprocessEnv(environ: seq<string>, envVars: map<string, string>, vars: map<string, string>, order: Order): (e: seq<string>)
    ensures |environ| <= |e| && e[..|environ|] == environ
  {
    environ + Assignments("", envVars, order(envVars)) + Assignments("TF_VAR_", vars, order(vars))
  }

  /** Over an enumeration of `m`, there is exactly one entry per key, in the
      enumeration's order. */
  lemma {:induction false} AssignmentsOfEnumeration(prefix: string, m: map<string, string>, keys: seq<string>)
    requires forall i :: 0 <= i < |keys| ==> keys[i] in m
    ensures |Assignments(prefix, m, keys)| == |keys|
    ensures forall i :: 0 <= i < |keys| ==>
      Assignments(prefix, m, keys)[i] == Entry(prefix, keys[i], m[keys[i]])
    decreases |keys|
  {
    if |keys| > 0 {
      AssignmentsOfEnumeration(prefix, m, keys[..|keys| - 1]);
    }
  }

  /** Over an enumeration of `m`: one entry per key and nothing else. */
  lemma AssignmentsExact(prefix: string, m: map<string, string>, keys: seq<string>)
    requires Enumerates(keys, m)
    ensures var r := Assignments(prefix, m, keys);
      && |r| == |m|
      && (forall k :: k in m ==> Entry(prefix, k, m[k]) in r)
      && (forall i :: 0 <= i < |r| ==> exists k :: k in m && r[i] == Entry(prefix, k, m[k]))
  {
    var r := Assignments(prefix, m, keys);
    EnumeratesSize(keys, m);
    AssignmentsOfEnumeration(prefix, m, keys);
    forall k | k in m
      ensures Entry(prefix, k, m[k]) in r
    {
      var j :| 0 <= j < |keys| && keys[j] == k;
      assert r[j] == Entry(prefix, k, m[k]);
    }
    forall i | 0 <= i < |r|
      ensures exists k :: k in m && r[i] == Entry(prefix, k, m[k])
    {
      assert keys[i] in m;
    }
  }

  /** The entries after `pre` are exactly one per key of `m`. */
  lemma TrailingSection(pre: seq<string>, prefix: string, m: map<string, string>, keys: seq<string>)
    requires Enumerates(keys, m)
    ensures var env := pre + Assignments(prefix, m, keys);
      && |env| == |pre| + |m|
      && (forall k :: k in m ==> Entry(prefix, k, m[k]) in env[|pre|..])
      && (forall i :: |pre| <= i < |env| ==> exists k :: k in m && env[i] == Entry(prefix, k, m[k]))
  {
    var r := Assignments(prefix, m, keys);
    AssignmentsExact(prefix, m, keys);
    var env := pre + r;
    assert env[|pre|..] == r;
    forall i | |pre| <= i < |env|
      ensures exists k :: k in m && env[i] == Entry(prefix, k, m[k])
    {
      assert env[i] == r[i - |pre|];
    }
  }

  /** With a lawful map order the inherited environment comes first, kept
      whole, followed by one entry per task variable and one per input
      value. */
  lemma EnvKeepsInherited(environ: seq<string>, envVars: map<string, string>, vars: map<string, string>, order: Order)
    requires Lawful(order)
    ensures var env := SubprocessEnv(environ, envVars, vars, order);
      |env| == |environ| + |envVars| + |vars| && env[..|environ|] == environ
  {
    var e := Assignments("", envVars, order(envVars));
    TrailingSection(environ, "", envVars, order(envVars));
    TrailingSection(environ + e, "TF_VAR_", vars, order(vars));
    var env := SubprocessEnv(environ, envVars, vars, order);
    assert env[..|environ|] == (environ + e)[..|environ|];
  }

  /** After the inherited environment: every task variable as `k=v`, once
      each, and nothing else. */
  lemma EnvVarsSection(environ: seq<string>, envVars: map<string, string>, vars: map<string, string>, order: Order)
    requires Lawful(order)
    ensures var env := SubprocessEnv(environ, envVars, vars, order);
      var a, b := |environ|, |environ| + |envVars|;
      && b <= |env|
      && (forall k :: k in envVars ==> Entry("", k, envVars[k]) in env[a..b])
      && (forall i :: a <= i < b ==> exists k :: k in envVars && env[i] == Entry("", k, envVars[k]))
  {
    var e := Assignments("", envVars, order(envVars));
    TrailingSection(environ, "", envVars, order(envVars));
    var env := SubprocessEnv(environ, envVars, vars, order);
    var b := |environ| + |envVars|;
    assert env[..b] == environ + e;
    assert env[|environ|..b] == (environ + e)[|environ|..];
    forall i | |environ| <= i < b
      ensures exists k :: k in envVars && env[i] == Entry("", k, envVars[k])
    {
      assert env[i] == (environ + e)[i];
    }
  }

  /** Last: every input value as `TF_VAR_k=v`, once each, and nothing else. */
  lemma TfVarsSection(environ: seq<string>, envVars: map<string, string>, vars: map<string, string>, order: Order)
    requires Lawful(order)
    ensures var env := SubprocessEnv(environ, envVars, vars, order);
      var b := |environ| + |envVars|;
      && b <= |env|
      && (forall k :: k in vars ==> Entry("TF_VAR_", k, vars[k]) in env[b..])
      && (forall i :: b <= i < |env| ==> exists k :: k in vars && env[i] == Entry("TF_VAR_", k, vars[k]))
  {
    var e := Assignments("", envVars, order(envVars));
    TrailingSection(environ, "", envVars, order(envVars));
    TrailingSection(environ + e, "TF_VAR_", vars, order(vars));
  }

  /** Without input values no `TF_VAR_` entry is added. */
  lemma NoVarsNoTfVarEntries(environ: seq<string>, envVars: map<string, string>, order: Order)
    requires Lawful(order)
    ensures SubprocessEnv(environ, envVars, map[], order) == environ + Assignments("", envVars, order(envVars))
  {
    var vk := order(map[]);
    assert Enumerates(vk, map[]);
    EnumeratesSize(vk, map[]);
  }
}

=== FILE: terraform_options.dfy ===
/** How the executor reads the two context-bound maps back
    (internal/task/terraform/terraform.go:112-115 and 265-268), and what the
    executor-specific options promise about them. */
module TerraformOptions {
  import opened Wrappers
  import opened Options

  /** The declared input values; a task built without `TerraformWithVars`
      has none. */
  function VarsOf(o: TaskOptions): map<string, string>
  {
    o.vars.GetOr(map[])
  }

  /** The cross-task state references; none unless `TerraformWithRemoteStates`
      was applied. */
  function RemoteStatesOf(o: TaskOptions): map<string, string>
  {
    o.remoteStates.GetOr(map[])
  }

  /** The environment variables; a nil map ranges as an empty one. */
  function EnvVarsOf(o: TaskOptions): map<string, string>
  {
    o.envVars.GetOr(map[])
  }

  /** `TerraformWithVars` binds its map for the executor's lookup and changes
      nothing else. */
  lemma WithVarsOnlyBindsVars(o: TaskOptions, v: map<string, string>)
    ensures VarsOf(Apply(o, TerraformWithVars(v))) == v
    ensures forall f :: f != Vars ==> Get(Apply(o, TerraformWithVars(v)), f) == Get(o, f)
  {
  }

  /** `TerraformWithRemoteStates` binds its map and changes nothing else. */
  lemma WithRemoteStatesOnlyBindsRemoteStates(o: TaskOptions, rs: map<string, string>)
    ensures RemoteStatesOf(Apply(o, TerraformWithRemoteStates(rs))) == rs
    ensures forall f :: f != RemoteStates ==> Get(Apply(o, TerraformWithRemoteStates(rs)), f) == Get(o, f)
  {
  }

  /** Both maps stay retrievable whichever of the two options runs first. */
  lemma BothBindingsRetrievable(opts: seq<TaskOption>, v: map<string, string>, rs: map<string, string>)
    ensures var o := NewTaskOptions(opts + [TerraformWithVars(v), TerraformWithRemoteStates(rs)]);
      VarsOf(o) == v && RemoteStatesOf(o) == rs
    ensures var o := NewTaskOptions(opts + [TerraformWithRemoteStates(rs), TerraformWithVars(v)]);
      VarsOf(o) == v && RemoteStatesOf(o) == rs
  {
    var a := opts + [TerraformWithVars(v), TerraformWithRemoteStates(rs)];
    var b := opts + [TerraformWithRemoteStates(rs), TerraformWithVars(v)];
    assert a[..|a| - 1] == opts + [TerraformWithVars(v)];
    assert Get(NewTaskOptions(a), Vars) == LastSetting(a, Vars, Table(None)) == Table(Some(v));
    assert Get(NewTaskOptions(a), RemoteStates) == LastSetting(a, RemoteStates, Table(None)) == Table(Some(rs));
    assert b[..|b| - 1] == opts + [TerraformWithRemoteStates(rs)];
    assert Get(NewTaskOptions(b), Vars) == LastSetting(b, Vars, Table(None)) == Table(Some(v));
    assert Get(NewTaskOptions(b), RemoteStates) == LastSetting(b, RemoteStates, Table(None)) == Table(Some(rs));
  }

  /** When `TerraformWithVars` is applied twice, the executor sees the later map. */
  lemma LaterVarsWin(opts: seq<TaskOption>, v1: map<string, string>, v2: map<string, string>, rest: seq<TaskOption>)
    requires forall i :: 0 <= i < |rest| ==> !rest[i].TerraformWithVars?
    ensures VarsOf(NewTaskOptions(opts + [TerraformWithVars(v1)] + rest + [TerraformWithVars(v2)])) == v2
    ensures VarsOf(NewTaskOptions(opts + [TerraformWithVars(v1), TerraformWithVars(v2)] + rest)) == v2
  {
    var a := opts + [TerraformWithVars(v1)] + rest + [TerraformWithVars(v2)];
    assert Get(NewTaskOptions(a), Vars) == LastSetting(a, Vars, Table(None));
    var b := opts + [TerraformWithVars(v1), TerraformWithVars(v2)] + rest;
    var front := opts + [TerraformWithVars(v1), TerraformWithVars(v2)];
    assert b == front + rest;
    LastSettingSkipsSuffix(front, rest, Vars, Table(None));
    assert front[..|front| - 1] == opts + [TerraformWithVars(v1)];
  }

  /** Options that do not target a field cannot change its last setting. */
  lemma {:induction false} LastSettingSkipsSuffix(front: seq<TaskOption>, rest: seq<TaskOption>, f: Field, start: Value)
    requires forall i :: 0 <= i < |rest| ==> Target(rest[i]) != f
    ensures LastSetting(front + rest, f, start) == LastSetting(front, f, start)
    decreases |rest|
  {
    if |rest| == 0 {
      assert front + rest == front;
    } else {
      var all := front + rest;
      assert all[..|all| - 1] == front + rest[..|rest| - 1];
      assert all[|all| - 1] == rest[|rest| - 1];
      LastSettingSkipsSuffix(front, rest[..|rest| - 1], f, start);
    }
  }

  /** A task built without the executor-specific options has empty vars and
      empty remote states. */
  lemma WithoutBindingsEmpty(opts: seq<TaskOption>)
    requires forall i :: 0 <= i < |opts| ==> !opts[i].TerraformWithVars? && !opts[i].TerraformWithRemoteStates?
    ensures VarsOf(NewTaskOptions(opts)) == map[]
    ensures RemoteStatesOf(NewTaskOptions(opts)) == map[]
  {
    UntouchedFieldKeepsStart(opts, Vars, Table(None));
    UntouchedFieldKeepsStart(opts, RemoteStates, Table(None));
    assert Get(NewTaskOptions(opts), Vars) == Table(None);
    assert Get(NewTaskOptions(opts), RemoteStates) == Table(None);
  }
}

=== FILE: text.dfy ===
/** Character-level helpers for Go's `strings` functions used by the core.
    Strings are sequences of Unicode characters, which stand for Go byte
    strings holding valid UTF-8. */
module Text {

  /** Go's `unicode.IsSpace`: the Unicode White_Space characters. */
  predicate IsSpace(c: char)
  {
    var n := c as int;
    || n == 0x09 || n == 0x0A || n == 0x0B || n == 0x0C || n == 0x0D || n == 0x20
    || n == 0x85 || n == 0xA0 || n == 0x1680
    || (0x2000 <= n <= 0x200A)
    || n == 0x2028 || n == 0x2029 || n == 0x202F || n == 0x205F || n == 0x3000
  }

  /** `len(strings.TrimSpace(s)) == 0`: nothing but white space. */
  predicate IsBlank(s: string)
  {
    |s| == 0 || (IsSpace(s[0]) && IsBlank(s[1..]))
  }

  predicate IsAsciiLetter(c: char)
  {
    'a' <= c <= 'z' || 'A' <= c <= 'Z'
  }

  predicate IsAsciiDigit(c: char)
  {
    '0' <= c <= '9'
  }

  function LowerAscii(c: char): char
  {
    if 'A' <= c <= 'Z' then (c as int + 32) as char else c
  }

  /** `strings.ToLower` restricted to ASCII letters; other characters are kept. */
  function ToLower(s: string): string
  {
    seq(|s|, i requires 0 <= i < |s| => LowerAscii(s[i]))
  }

  predicate IsLower(s: string)
  {
    forall i :: 0 <= i < |s| ==> !('A' <= s[i] <= 'Z')
  }

  /** Lower-casing leaves nothing to lower-case and is idempotent. */
  lemma ToLowerIsLower(s: string)
    ensures IsLower(ToLower(s))
    ensures ToLower(ToLower(s)) == ToLower(s)
  {
  }

  /** Lower-casing works character by character, so it distributes over
      concatenation. */
  lemma ToLowerAppend(a: string, b: string)
    ensures ToLower(a + b) == ToLower(a) + ToLower(b)
  {
  }

  /** Text already without upper-case letters is left unchanged. */
  lemma ToLowerOfLower(s: string)
    requires IsLower(s)
    ensures ToLower(s) == s
  {
  }

  /** The UTF-8 encoding of one character: the character itself below 0x80,
      otherwise a lead byte that announces the length followed by
      continuation bytes `10xxxxxx`. */
  function Utf8(c: char): (b: seq<int>)
    ensures 1 <= |b| <= 4
    ensures |b| == 1 <==> c < '\U{80}'
    ensures |b| == 1 ==> b[0] == c as int
    ensures forall i :: 0 <= i < |b| ==> 0 <= b[i] < 0x100
    ensures |b| > 1 ==> 0xC0 <= b[0] && forall i :: 1 <= i < |b| ==> 0x80 <= b[i] < 0xC0
  {
    var n := c as int;
    if n < 0x80 then [n]
    else if n < 0x800 then [0xC0 + n / 0x40, 0x80 + n % 0x40]
    else if n < 0x1_0000 then [0xE0 + n / 0x1000, 0x80 + n / 0x40 % 0x40, 0x80 + n % 0x40]
    else [0xF0 + n / 0x4_0000, 0x80 + n / 0x1000 % 0x40, 0x80 + n / 0x40 % 0x40, 0x80 + n % 0x40]
  }

  /** The UTF-8 encoding of a string: its characters' encodings in order. */
  function Utf8String(s: string): (b: seq<int>)
    ensures |b| >= |s|
  {
    if |s| == 0 then [] else Utf8(s[0]) + Utf8String(s[1..])
  }

  /** Encoding distributes over a split of the string. */
  lemma {:induction false} Utf8StringSplit(s: string, k: nat)
    requires k <= |s|
    ensures Utf8String(s) == Utf8String(s[..k]) + Utf8String(s[k..])
    decreases k
  {
    if k > 0 {
      Utf8StringSplit(s[1..], k - 1);
      assert s[1..][..k - 1] == s[..k][1..];
      assert s[1..][k - 1..] == s[k..];
    }
  }
}

=== FILE: url.dfy ===
/** The part of Go's `url.Parse` the executor depends on: whether the raw
    source locator parses, and its scheme, lower-cased. Only the control
    character check and the scheme scan (`getScheme`) are modelled; the rest of
    the parse (authority, port, escapes) is not. */
module Url {
  import opened Wrappers
  import opened Seqs
  import opened Text

  /** A character that may continue a scheme after its first letter. */
  predicate SchemeChar(c: char)
  {
    IsAsciiLetter(c) || IsAsciiDigit(c) || c == '+' || c == '-' || c == '.'
  }

  function EndsSchemeScan(c: char): bool
  {
    !SchemeChar(c)
  }

  /** A scheme as RFC 3986 section 3.1 defines it: a letter, then letters,
      digits, `+`, `-` or `.`. */
  predicate ValidScheme(p: string)
  {
    |p| > 0 && IsAsciiLetter(p[0]) && forall i :: 0 <= i < |p| ==> SchemeChar(p[i])
  }

  /** ASCII control characters, which `url.Parse` rejects anywhere. */
  predicate IsControl(c: char)
  {
    c < ' ' || c == '\U{7F}'
  }

  /** A string `url.Parse` does not reject for control characters. */
  predicate NoControl(s: string)
  {
    forall i :: 0 <= i < |s| ==> !IsControl(s[i])
  }

  lemma NoControlAppend(a: string, b: string)
    ensures NoControl(a + b) <==> NoControl(a) && NoControl(b)
  {
    if NoControl(a + b) {
      forall i | 0 <= i < |b|
        ensures !IsControl(b[i])
      {
        assert (a + b)[|a| + i] == b[i];
      }
      forall i | 0 <= i < |a|
        ensures !IsControl(a[i])
      {
        assert (a + b)[i] == a[i];
      }
    }
    if NoControl(a) && NoControl(b) {
      forall i | 0 <= i < |a + b|
        ensures !IsControl((a + b)[i])
      {
        if i >= |a| {
          assert (a + b)[i] == b[i - |a|];
        }
      }
    }
  }

  function IsHash(c: char): bool
  {
    c == '#'
  }

  /** The locator with its fragment cut off: everything before the first
      `#`. `url.Parse` parses only this part and quotes only this part in its
      errors. */
  function BeforeFragment(raw: string): (u: string)
    ensures |u| <= |raw| && raw[..|u|] == u
    ensures '#' !in u
    ensures |u| < |raw| ==> raw[|u|] == '#'
  {
    var k := FirstWhere(raw, IsHash);
    assert forall i :: 0 <= i < k ==> raw[..k][i] == raw[i];
    raw[..k]
  }

  /** The fragment: what follows the first `#`, or nothing when there is
      no `#`. */
  function Fragment(raw: string): (f: string)
    ensures |BeforeFragment(raw)| == |raw| ==> f == ""
    ensures |BeforeFragment(raw)| < |raw| ==> raw == BeforeFragment(raw) + "#" + f
  {
    var u := BeforeFragment(raw);
    if |u| < |raw| then
      assert raw == raw[..|u|] + [raw[|u|]] + raw[|u| + 1..];
      raw[|u| + 1..]
    else ""
  }

  /** Text without a `#` is kept whole, and whatever follows it is cut at
      its own first `#`; the fragment is the one that follows. */
  lemma BeforeFragmentAppend(a: string, b: string)
    requires '#' !in a
    ensures BeforeFragment(a + b) == a + BeforeFragment(b)
    ensures Fragment(a + b) == Fragment(b)
  {
    var k := FirstWhere(b, IsHash);
    var ab := a + b;
    forall i | 0 <= i < |a| + k
      ensures !IsHash(ab[i])
    {
      if i < |a| {
        assert ab[i] == a[i];
      } else {
        assert ab[i] == b[i - |a|];
      }
    }
    if k < |b| {
      assert ab[|a| + k] == b[k];
    }
    FirstWhereUnique(ab, IsHash, |a| + k);
    assert ab[..|a| + k] == a + b[..k];
    if k < |b| {
      assert ab[|a| + k + 1..] == b[k + 1..];
    }
  }

  /** Splitting `u#f` gives back `u` and `f`. */
  lemma SplitFragment(u: string, f: string)
    requires '#' !in u
    ensures BeforeFragment(u + "#" + f) == u && Fragment(u + "#" + f) == f
  {
    assert u + "#" + f == u + ("#" + f);
    BeforeFragmentAppend(u, "#" + f);
    assert FirstWhere("#" + f, IsHash) == 0;
    assert ("#" + f)[1..] == f;
  }

  /** A locator without `#` has no fragment. */
  lemma NoFragment(u: string)
    requires '#' !in u
    ensures BeforeFragment(u) == u && Fragment(u) == ""
  {
    BeforeFragmentAppend(u, "");
    assert u + "" == u;
  }

  predicate IsHexDigit(c: char)
  {
    '0' <= c <= '9' || 'a' <= c <= 'f' || 'A' <= c <= 'F'
  }

  /** Every `%` starts an escape: it is followed by two hexadecimal digits. */
  predicate WellEscaped(s: string)
  {
    forall i :: 0 <= i < |s| && s[i] == '%' ==> i + 2 < |s| && IsHexDigit(s[i + 1]) && IsHexDigit(s[i + 2])
  }

  /** Dropping a front part whose `%`s all start escapes keeps the answer. */
  lemma WellEscapedFrom(s: string, k: nat)
    requires k <= |s|
    requires forall i :: 0 <= i < k && s[i] == '%' ==> i + 2 < |s| && IsHexDigit(s[i + 1]) && IsHexDigit(s[i + 2])
    ensures WellEscaped(s) <==> WellEscaped(s[k..])
  {
    var t := s[k..];
    if WellEscaped(s) {
      forall j | 0 <= j < |t| && t[j] == '%'
        ensures j + 2 < |t| && IsHexDigit(t[j + 1]) && IsHexDigit(t[j + 2])
      {
        assert s[k + j] == '%';
        assert t[j + 1] == s[k + j + 1] && t[j + 2] == s[k + j + 2];
      }
    }
    if WellEscaped(t) {
      forall i | k <= i < |s| && s[i] == '%'
        ensures i + 2 < |s| && IsHexDigit(s[i + 1]) && IsHexDigit(s[i + 2])
      {
        assert t[i - k] == '%';
        assert t[i - k + 1] == s[i + 1] && t[i - k + 2] == s[i + 2];
      }
    }
  }

  /** A malformed escape as `unescape` reports it: cut to its first three
      bytes, which are the whole characters they hold followed by the leading
      bytes of a character the cut splits. */
  datatype EscapeCut = EscapeCut(whole: string, split: seq<int>)

  function Take3(b: seq<int>): seq<int>
  {
    if |b| > 3 then b[..3] else b
  }

  /** The three-byte cut of `t`, which starts at the malformed `%`: a prefix
      of `t`, and a part of the next character's encoding when the cut falls
      inside it. */
  function CutEscape(t: string): (r: EscapeCut)
    requires |t| > 0 && t[0] == '%'
    ensures 0 < |r.whole| <= |t| && t[..|r.whole|] == r.whole
  {
    if |t| == 1 then EscapeCut(t, [])
    else
      var b1 := Utf8(t[1]);
      if |b1| >= 3 then EscapeCut(t[..1], b1[..2])
      else if |b1| == 2 || |t| == 2 then EscapeCut(t[..2], [])
      else
        var b2 := Utf8(t[2]);
        if |b2| == 1 then EscapeCut(t[..3], []) else EscapeCut(t[..2], b2[..1])
  }

  /** The first `k` characters of `t` encode as those characters'
      encodings in turn. */
  lemma Utf8Front(t: string, k: nat)
    requires 1 <= k <= 3 && k <= |t|
    ensures k == 1 ==> Utf8String(t[..k]) == Utf8(t[0])
    ensures k == 2 ==> Utf8String(t[..k]) == Utf8(t[0]) + Utf8(t[1])
    ensures k == 3 ==> Utf8String(t[..k]) == Utf8(t[0]) + Utf8(t[1]) + Utf8(t[2])
  {
    var p := t[..k];
    var p1 := p[1..];
    assert Utf8String(p) == Utf8(t[0]) + Utf8String(p1);
    if k == 1 {
      assert p1 == [];
    } else {
      var p2 := p1[1..];
      assert Utf8String(p1) == Utf8(t[1]) + Utf8String(p2);
      if k == 2 {
        assert p2 == [];
      } else {
        assert Utf8String(p2) == Utf8(t[2]) + Utf8String(p2[1..]);
        assert p2[1..] == [];
      }
    }
  }

  /** The cut takes exactly the first three bytes of the escape's encoding
      (all of it when it is shorter), and what it keeps of a split character
      is a proper part of that character's encoding. */
  lemma CutEscapeBytes(t: string)
    requires |t| > 0 && t[0] == '%'
    ensures var r := CutEscape(t);
      && Utf8String(r.whole) + r.split == Take3(Utf8String(t))
      && (r.split != [] ==>
            |r.whole| < |t| && |r.split| < |Utf8(t[|r.whole|])| && r.split == Utf8(t[|r.whole|])[..|r.split|])
  {
    assert Utf8(t[0]) == [0x25];
    if |t| == 1 {
      Utf8Front(t, 1);
      assert t[..1] == t;
    } else if |Utf8(t[1])| >= 3 || |Utf8(t[1])| == 2 || |t| == 2 {
      CutAfterOne(t);
    } else {
      CutAfterTwo(t);
    }
  }

  /** The cases where the character after the `%` settles the cut. */
  lemma CutAfterOne(t: string)
    requires |t| > 1 && t[0] == '%'
    requires |Utf8(t[1])| >= 2 || |t| == 2
    ensures var r := CutEscape(t);
      && Utf8String(r.whole) + r.split == Take3(Utf8String(t))
      && (r.split != [] ==>
            |r.whole| < |t| && |r.split| < |Utf8(t[|r.whole|])| && r.split == Utf8(t[|r.whole|])[..|r.split|])
  {
    var b1 := Utf8(t[1]);
    assert Utf8(t[0]) == [0x25];
    Utf8StringSplit(t, 2);
    Utf8Front(t, 2);
    var e := Utf8String(t);
    assert e == [0x25] + b1 + Utf8String(t[2..]);
    if |b1| >= 3 {
      Utf8Front(t, 1);
      assert e[..3] == [0x25] + b1[..2];
    } else if |b1| == 2 {
      assert e[..3] == [0x25] + b1;
    } else {
      assert t[2..] == [];
    }
  }

  /** The cases where the cut reaches the second character after the `%`. */
  lemma CutAfterTwo(t: string)
    requires |t| > 2 && t[0] == '%' && |Utf8(t[1])| == 1
    ensures var r := CutEscape(t);
      && Utf8String(r.whole) + r.split == Take3(Utf8String(t))
      && (r.split != [] ==>
            |r.whole| < |t| && |r.split| < |Utf8(t[|r.whole|])| && r.split == Utf8(t[|r.whole|])[..|r.split|])
  {
    var b1, b2 := Utf8(t[1]), Utf8(t[2]);
    assert Utf8(t[0]) == [0x25];
    Utf8StringSplit(t, 3);
    Utf8Front(t, 3);
    var e := Utf8String(t);
    assert e == [0x25] + b1 + b2 + Utf8String(t[3..]);
    assert e[..3] == [0x25, b1[0], b2[0]];
    if |b2| > 1 {
      Utf8Front(t, 2);
    }
  }

  /** `unescape`'s scan: the first malformed escape, cut to three bytes, or
      nothing when every escape is well formed. */
  function BadEscape(s: string): (r: Option<EscapeCut>)
    ensures r.None? <==> WellEscaped(s)
    ensures r.Some? ==> |r.value.whole| > 0 && r.value.whole[0] == '%' 
    decreases |s|
  {
    if |s| == 0 then None
    else if s[0] != '%' then
      WellEscapedFrom(s, 1);
      BadEscape(s[1..])
    else if |s| < 3 || !IsHexDigit(s[1]) || !IsHexDigit(s[2]) then
      Some(CutEscape(s))
    else
      WellEscapedFrom(s, 3);
      BadEscape(s[3..])
  }

  /** Behind well-formed escapes, the scan reports the first `%` that does
      not start one, cut from there. */
  lemma {:induction false} FirstBadEscape(a: string, t: string)
    requires WellEscaped(a)
    requires |t| > 0 && t[0] == '%' && !(|t| > 2 && IsHexDigit(t[1]) && IsHexDigit(t[2]))
    ensures BadEscape(a + t) == Some(CutEscape(t))
    decreases |a|
  {
    if |a| == 0 {
      assert a + t == t;
    } else if a[0] != '%' {
      WellEscapedFrom(a, 1);
      assert (a + t)[1..] == a[1..] + t;
      FirstBadEscape(a[1..], t);
    } else {
      assert 2 < |a| && IsHexDigit(a[1]) && IsHexDigit(a[2]);
      WellEscapedFrom(a, 3);
      assert (a + t)[3..] == a[3..] + t;
      FirstBadEscape(a[3..], t);
    }
  }

  const MissingScheme := "missing protocol scheme"
  const InvalidControl := "net/url: invalid control character in URL"

  function LowerHex(d: int): char
  {
    "0123456789abcdef"[d % 16]
  }

  /** Bytes that are no whole character, as `strconv.Quote` shows them:
      `\x` and two lower-case hexadecimal digits each. */
  function HexBytes(b: seq<int>): (r: string)
    ensures |r| == 4 * |b|
  {
    if |b| == 0 then ""
    else ['\\', 'x', LowerHex(b[0] / 16), LowerHex(b[0])] + HexBytes(b[1..])
  }

  /** The reason an `EscapeError` gives: the cut escape, quoted (Go's
      escaping of quotes, backslashes and non-printable characters among the
      whole characters is not modelled). */
  function InvalidEscape(escape: EscapeCut): string
  {
    "invalid URL escape \"" + escape.whole + HexBytes(escape.split) + "\""
  }

  /** Go's `*url.Error` for the `parse` operation: the locator it quotes and
      the reason. */
  datatype ParseFailure = ParseFailure(url: string, reason: string)

  /** `getScheme`: scan letters (and, after the first position, digits, `+`,
      `-`, `.`); a `:` ends the scheme, except in first position where it is an
      error; any other character, or a digit-like first character, means the
      locator has no scheme. */
  function GetScheme(raw: string): (r: Result<string, string>)
    ensures r.Failure? <==> |raw| > 0 && raw[0] == ':'
    ensures r.Failure? ==> r.error == MissingScheme
    ensures r.Success? && r.value != "" ==>
      && ValidScheme(r.value) && |r.value| < |raw|
      && raw[..|r.value|] == r.value && raw[|r.value|] == ':'
  {
    if |raw| > 0 && SchemeChar(raw[0]) && !IsAsciiLetter(raw[0]) then Success("")
    else
      var k := FirstWhere(raw, EndsSchemeScan);
      if k == |raw| then Success("")
      else if raw[k] != ':' then Success("")
      else if k == 0 then Failure(MissingScheme)
      else
        assert raw[..k][0] == raw[0];
        assert forall i :: 0 <= i < k ==> raw[..k][i] == raw[i];
        Success(raw[..k])
  }

  /** The scheme `url.Parse` reports, lower-cased, or its error. The part
      before the fragment is parsed, and an error there quotes that part; only
      then is a non-empty fragment unescaped, and an error there quotes the
      whole locator. */
  function Scheme(raw: string): (r: Result<string, ParseFailure>)
    ensures r.Success? ==> IsLower(r.value)
    ensures !NoControl(BeforeFragment(raw)) ==> r == Failure(ParseFailure(BeforeFragment(raw), InvalidControl))
    ensures NoControl(BeforeFragment(raw)) && |raw| > 0 && raw[0] == ':' ==>
      r == Failure(ParseFailure(BeforeFragment(raw), MissingScheme))
    ensures NoControl(BeforeFragment(raw)) && !(|raw| > 0 && raw[0] == ':') ==>
      && (r.Success? <==> WellEscaped(Fragment(raw)))
      && (r.Failure? ==> r.error == ParseFailure(raw, InvalidEscape(BadEscape(Fragment(raw)).value)))
  {
    var u := BeforeFragment(raw);
    if !NoControl(u) then Failure(ParseFailure(u, InvalidControl))
    else
      assert |u| > 0 ==> u[0] == raw[0];
      match GetScheme(u)
      case Failure(e) => Failure(ParseFailure(u, e))
      case Success(s) =>
        var bad := BadEscape(Fragment(raw));
        if bad.Some? then Failure(ParseFailure(raw, InvalidEscape(bad.value)))
        else
          ToLowerIsLower(s);
          Success(ToLower(s))
  }

  /** A fragment whose escapes are well formed plays no part in the scheme,
      whatever else it holds, control characters included. */
  lemma FragmentIgnored(u: string, f: string)
    requires '#' !in u
    requires WellEscaped(f)
    ensures Scheme(u + "#" + f) == Scheme(u)
  {
    SplitFragment(u, f);
    NoFragment(u);
  }

  /** `%zz` is not an escape, and the error names all three characters. */
  lemma NotAnEscape()
    ensures !WellEscaped("%zz") && BadEscape("%zz") == Some(EscapeCut("%zz", []))
  {
    var s := "%zz";
    assert |s| == 3 && s[0] == '%' && !IsHexDigit(s[1]);
    assert |Utf8(s[1])| == 1 && |Utf8(s[2])| == 1;
    assert s[..3] == s;
    FirstBadEscape("", s);
    assert "" + s == s;
  }

  /** The cut counts bytes, not characters: `%é` is three bytes and is
      reported whole. */
  lemma TwoByteCharKept()
    ensures BadEscape("%\U{E9}ab") == Some(EscapeCut("%\U{E9}", []))
  {
    var s := "%\U{E9}ab";
    assert |s| == 4 && s[0] == '%' && !IsHexDigit(s[1]);
    assert |Utf8(s[1])| == 2;
    assert s[..2] == "%\U{E9}";
    FirstBadEscape("", s);
    assert "" + s == s;
  }

  /** In `%aé` the cut splits `é` and keeps its lead byte. */
  lemma SplitCharKeepsLeadByte()
    ensures BadEscape("%a\U{E9}") == Some(EscapeCut("%a", [0xC3]))
  {
    var s := "%a\U{E9}";
    assert |s| == 3 && s[0] == '%' && s[1] == 'a' && !IsHexDigit(s[2]);
    assert |Utf8(s[1])| == 1;
    assert s[2] as int == 0xE9;
    assert Utf8(s[2])[..1] == [0xC3];
    assert s[..2] == "%a";
    FirstBadEscape("", s);
    assert "" + s == s;
  }

  /** A lead byte left by the cut is shown as `\x` and its hexadecimal
      digits. */
  lemma SplitByteQuoted()
    ensures InvalidEscape(EscapeCut("%a", [0xC3])) == "invalid URL escape \"%a\\xc3\""
  {
  }

  /** A fragment with a malformed escape is refused once the part before it
      parses, and the error quotes the whole locator. */
  lemma FragmentEscapeRefused(u: string, f: string)
    requires '#' !in u
    requires Scheme(u).Success?
    requires !WellEscaped(f)
    ensures Scheme(u + "#" + f) == Failure(ParseFailure(u + "#" + f, InvalidEscape(BadEscape(f).value)))
  {
    SplitFragment(u, f);
    NoFragment(u);
  }

  /** The converse of `GetScheme`'s contract: a locator that starts with a
      valid scheme and a colon has exactly that scheme. */
  lemma SchemeOfPrefixed(p: string, rest: string)
    requires ValidScheme(p)
    ensures GetScheme(p + ":" + rest) == Success(p)
  {
    var raw := p + ":" + rest;
    assert raw[..|p|] == p;
    assert forall i :: 0 <= i < |p| ==> raw[i] == p[i];
    FirstWhereUnique(raw, EndsSchemeScan, |p|);
  }

  /** A locator that starts with a valid scheme and a colon, holds no
      control character before its fragment, and has only well-formed escapes
      in its fragment, parses with that scheme, lower-cased. */
  lemma SchemeOfLocator(p: string, rest: string)
    requires ValidScheme(p)
    requires NoControl(BeforeFragment(p + ":" + rest))
    requires WellEscaped(Fragment(p + ":" + rest))
    ensures Scheme(p + ":" + rest) == Success(ToLower(p))
  {
    forall i | 0 <= i < |p + ":"|
      ensures (p + ":")[i] != '#'
    {
      if i < |p| {
        assert (p + ":")[i] == p[i];
      }
    }
    BeforeFragmentAppend(p + ":", rest);
    assert p + ":" + rest == (p + ":") + rest;
    assert (p + ":") + BeforeFragment(rest) == p + ":" + BeforeFragment(rest);
    SchemeOfPrefixed(p, BeforeFragment(rest));
  }

  /** Behind a valid scheme and a plain locator, the fragment decides alone:
      well-formed escapes give the scheme, a malformed one an error quoting
      the whole locator. */
  lemma FragmentOfLocator(p: string, rest: string, f: string)
    requires ValidScheme(p)
    requires '#' !in rest && NoControl(rest)
    ensures var raw := p + ":" + rest + "#" + f;
      Scheme(raw) == if WellEscaped(f) then Success(ToLower(p))
                     else Failure(ParseFailure(raw, InvalidEscape(BadEscape(f).value)))
  {
    var u := p + ":" + rest;
    assert '#' !in u by {
      forall i | 0 <= i < |u|
        ensures u[i] != '#'
      {
        if i <= |p| {
          assert i < |p| ==> u[i] == p[i] && SchemeChar(p[i]);
        } else {
          assert u[i] == rest[i - |p| - 1];
        }
      }
    }
    NoFragment(u);
    NoControlAppend(p + ":", rest);
    assert NoControl(p + ":") by {
      assert forall i :: 0 <= i < |p| ==> SchemeChar(p[i]);
    }
    SchemeOfLocator(p, rest);
    if WellEscaped(f) {
      FragmentIgnored(u, f);
    } else {
      FragmentEscapeRefused(u, f);
    }
  }

  /** The same behind `https`. */
  lemma FragmentOfHttpsLocator(rest: string, f: string)
    requires '#' !in rest && NoControl(rest)
    ensures var raw := "https" + ":" + rest + "#" + f;
      Scheme(raw) == if WellEscaped(f) then Success("https")
                     else Failure(ParseFailure(raw, InvalidEscape(BadEscape(f).value)))
  {
    assert ValidScheme("https") && ToLower("https") == "https";
    FragmentOfLocator("https", rest, f);
  }
}

=== FILE: wrappers.dfy ===
/** Failure-carrying values used across the model: Go's `(T, error)` and bare
    `error` returns become `Result` and `Outcome`, and Go's nil-able maps and
    context lookups become `Option`. */
module Wrappers {

  datatype Option<+T> = None | Some(value: T) {
    function GetOr(default: T): T {
      match this
      case Some(v) => v
      case None => default
    }
  }

  datatype Result<+R, +E> = Success(value: R) | Failure(error: E)

  /** A Go `error` return: nil is `Pass`, anything else is `Fail(e)`. */
  datatype Outcome<+E> = Pass | Fail(error: E)
}
